=== FILE: README.md ===
# awd-cli decision logic in Dafny

A Dafny model of the decision logic in `awd`, the command-line tool for
Agentic Workflow Definitions: the MCP registry client, the AI runtime
manager, and the non-presentation helpers of the CLI commands (`init`,
`install`, `run`, `preview`). The network, the file system and subprocesses
are explicit inputs. The registry is two oracles: the reply to a listing
request and the reply to a detail request. The host is a home directory, a
map from paths to file-system nodes, and the set of binaries on `PATH`.
Setup scripts, version queries, the script runner and the MCP installer are
functions passed in as parameters.

Modules, one per file:

- `Wrappers` (`wrappers.dfy`): `Option` and `Result` with failure propagation.
- `Strings` (`strings.dfy`): the Python `str` operations the tool relies on:
  `lower`, `in`, `count`, `find`, `rfind`, `replace`, `split`/`join` and `strip`.
- `Values` (`values.dfy`): a parsed YAML/JSON document, Python truthiness, `in`,
  subscripting and `dict.get`, and the result of reading a YAML file.
- `Registry` (`registry.dfy`): `SimpleRegistryClient`.
- `Runtime` (`runtime.dfy`): `RuntimeManager`.
- `Params` (`params.dfy`): the `--param name=value` parsing of `run` and `preview`.
- `Templates` (`templates.dfy`): `_load_template_file` and its `{{name}}` substitution.
- `Scripts` (`scripts.dfy`): the default script, the `run` and `preview` guards,
  and the compiled prompt path.
- `ProjectInit` (`project_init.dfy`): `awd init`, covering the project name,
  the overwrite guard, the choice of configuration source, merging and defaults.
- `Install` (`install.dfy`): `awd install` and its partial-failure-tolerant loop.

Behaviour of the code that the model keeps as written:

- A dependency whose installation raises is reported, the loop goes on, and
  `awd install` still exits 0 (src/awd_cli/cli.py:426-443).
- `list_runtimes` calls a runtime installed when anything exists at its
  managed path, a directory included (src/awd_cli/runtime/manager.py:146-149).
- `find_server_by_reference` tries the direct id lookup first, only for
  id-shaped references, and the exact-name scan of the first page second
  (src/awd_cli/registry/client.py:138-156).
- An `ImportError` raised anywhere inside the runner block of `run` or
  `preview` (the import, the constructor, `list_scripts`, `run_script`,
  or the retried compilation) only warns, and the command exits 0
  (src/awd_cli/cli.py:523-539 and 574-644).
- When the installer cannot be set up because of an `ImportError`, `install`
  lists the dependencies with `', '.join(...)` and exits 0. If a dependency
  is not a string, that join raises `TypeError` and the command exits 1
  (src/awd_cli/cli.py:437-447).

## Model

| member | source | states |
|---|---|---|
| `Strings.Lower` | src/awd_cli/registry/client.py:72-73 | Lower-casing keeps the length, moves each upper-case letter 32 code points up to its lower-case form, and keeps every other character |
| `Strings.Contains` | src/awd_cli/registry/client.py:72-73 | Python's substring `in` holds exactly when the pattern occurs at some position |
| `Strings.Count` | src/awd_cli/registry/client.py:140 | `count('-')` is the multiplicity of the character in the string |
| `Strings.Strip` | src/awd_cli/runtime/manager.py:162 | `strip()` returns a slice of the input with whitespace only outside it and non-space characters at both ends |
| `Strings.StripTrimmed` | src/awd_cli/cli.py:941-944 | `strip()` leaves a string with no whitespace at either end unchanged |
| `Strings.StripIdempotent` | src/awd_cli/cli.py:941-944 | `strip()` yields a trimmed string, so stripping twice changes nothing |
| `Strings.Replace` | src/awd_cli/cli.py:224 | `str.replace` scans left to right and replaces every non-overlapping occurrence of the pattern |
| `Strings.Split` | src/awd_cli/cli.py:224 | The reference definition for the `replace` at this line (tied to it by `Strings.ReplaceIsJoinOfSplit`): `str.split` gives at least one piece, the first a prefix of the text, and no piece contains the separator |
| `Strings.ReplaceIsJoinOfSplit` | src/awd_cli/cli.py:224 | `replace` equals splitting at the pattern and joining with the replacement |
| `Strings.JoinSplit` | src/awd_cli/cli.py:224 | Splitting at a pattern and joining with it again gives back the original text |
| `Strings.ReplaceAbsent` | src/awd_cli/cli.py:224 | Text that does not contain the pattern is returned unchanged by `replace` |
| `Strings.ReplaceKeepsOccurrence` | src/awd_cli/cli.py:224 | An occurrence of another string that no occurrence of the pattern overlaps survives `replace` |
| `Values.Truthy` | src/awd_cli/cli.py:389 | Exactly `None`, `False`, `0`, the empty string, the empty list and the empty mapping are falsy |
| `Values.Membership` | src/awd_cli/cli.py:462 | `key in v` tests keys of a mapping, items of a list and substrings of a string, and raises `TypeError` for anything else |
| `Values.Subscript` | src/awd_cli/cli.py:462 | `v[key]` succeeds exactly on a mapping holding the key and yields its value |
| `Values.Get` | src/awd_cli/cli.py:387 | `v.get(key, default)` works only on mappings and yields the value or the default |
| `Registry.RegistryUrl` | src/awd_cli/registry/client.py:19-21 | The URL is a non-empty argument, else the `MCP_REGISTRY_URL` variable when set, else the demo registry |
| `Registry.ListParams` | src/awd_cli/registry/client.py:38-43 | `limit` and `cursor` are sent exactly when they are given, with their values |
| `Registry.ListParamsRoundTrip` | src/awd_cli/registry/client.py:38-43 | The request parameters give back exactly the limit and cursor they were built from |
| `Registry.ListServers` | src/awd_cli/registry/client.py:45-53 | The listing succeeds exactly when the request does, and a failed request is a transport error; a missing `servers` gives an empty page and missing metadata gives no cursor |
| `Registry.ListServersReadsPage` | src/awd_cli/registry/client.py:45-53 | A page the registry sends is listed back as exactly its servers and its next cursor |
| `Registry.Matches` | src/awd_cli/registry/client.py:72-73 | A server matches when the lower-cased query occurs in its lower-cased name or description; a match needs the query to fit in one of them |
| `Registry.MatchingServers` | src/awd_cli/registry/client.py:70-74 | The result is a subsequence of the page holding every matching server with its multiplicity and no other |
| `Registry.SearchServers` | src/awd_cli/registry/client.py:67-74 | Search succeeds exactly when the first page is listed, and filters only that page: order kept, a listed server is returned exactly when it matches, and as often as it is listed |
| `Registry.EmptyQueryKeepsPage` | src/awd_cli/registry/client.py:72-73 | The empty query matches every server, so the whole page comes back |
| `Registry.MatchIgnoresQueryCase` | src/awd_cli/registry/client.py:72-73 | Whether a server matches does not depend on the case of the query |
| `Registry.GetServerInfo` | src/awd_cli/registry/client.py:89-97 | The detail body is returned unchanged when truthy; an empty body is `NotFound` and a failed request a transport error |
| `Registry.FirstNamed` | src/awd_cli/registry/client.py:113-114 | Finds the index of the first listed server with the exact name, or reports that none has it |
| `Registry.GetServerByName` | src/awd_cli/registry/client.py:111-117 | Returns the detail of the first server with that name, `None` when no server has it, and propagates that one lookup's error |
| `Registry.ScanByName` | src/awd_cli/registry/client.py:148-156 | Returns the detail of the first name match whose lookup succeeds; failing matches are skipped; `None` when no match yields |
| `Registry.LooksLikeServerId` | src/awd_cli/registry/client.py:140 | A reference has the shape of a server id when it has 36 characters of which exactly four are hyphens |
| `Registry.CanonicalUuidLooksLikeId` | src/awd_cli/registry/client.py:140 | Every canonical 8-4-4-4-12 UUID has the shape of a server id |
| `Registry.FindServerByReference` | src/awd_cli/registry/client.py:138-156 | An id-shaped reference whose direct lookup succeeds returns that detail; otherwise the exact-name scan of the first page decides |
| `Registry.DirectLookupIgnoresListing` | src/awd_cli/registry/client.py:140-141 | A successful direct lookup decides the answer whatever the registry lists |
| `Registry.FindAgreesWithGetByName` | src/awd_cli/registry/client.py:146-153 | For a reference that is not id-shaped, when `get_server_by_name` finds a detail the name scan finds the same one |
| `Runtime.IsRuntimeAvailable` | src/awd_cli/runtime/manager.py:170-183 | Unsupported names are never available; a managed regular-file binary wins; otherwise the PATH lookup decides |
| `Runtime.RuntimePreference` | src/awd_cli/runtime/manager.py:217-219 | The preference lists each supported runtime exactly once, codex first |
| `Runtime.FirstAvailable` | src/awd_cli/runtime/manager.py:223-226 | Returns the first available name in the given order, or none when no name is available |
| `Runtime.GetAvailableRuntime` | src/awd_cli/runtime/manager.py:221-226 | Codex whenever it is available; llm when only llm is; none when neither is |
| `Runtime.SetupArgs` | src/awd_cli/runtime/manager.py:119-123 | The arguments are the version when it is non-empty, then `--vanilla` when asked, in that order |
| `Runtime.SetupArgsRoundTrip` | src/awd_cli/runtime/manager.py:119-123 | The version and the vanilla flag can be read back from the arguments, an empty version reading as none, unless the version is the string `--vanilla` |
| `Runtime.SetupArgsAmbiguity` | src/awd_cli/runtime/manager.py:119-123 | A version spelled `--vanilla` gives the same arguments as no version with the vanilla flag |
| `Runtime.SetupRuntime` | src/awd_cli/runtime/manager.py:95-137 | An unsupported name never runs a script; the runtime's own script runs with those arguments when both scripts load; success is exactly exit code 0 |
| `Runtime.VersionOf` | src/awd_cli/runtime/manager.py:153-164 | The version is the stripped output on exit 0, `unknown` when the query raises, and absent on a nonzero exit |
| `Runtime.StatusOf` | src/awd_cli/runtime/manager.py:144-164 | One runtime entry: installed exactly when its managed path exists; a path exactly when installed; a version only when installed, from the query of that path |
| `Runtime.ListRuntimes` | src/awd_cli/runtime/manager.py:139-168 | There is one entry per supported runtime; installed means the managed path exists; a path is given exactly when installed; a version only when installed |
| `Runtime.ManagedFileIsListedAndAvailable` | src/awd_cli/runtime/manager.py:144-183 | A managed regular-file binary is both listed as installed and available |
| `Runtime.RemoveTree` | src/awd_cli/runtime/manager.py:202 | `rmtree` removes the directory and everything under it and keeps every other entry as it was |
| `Runtime.DeleteBinary` | src/awd_cli/runtime/manager.py:198-202 | Deleting the binary fails exactly on a locked file, or a directory with a locked entry anywhere in its tree; a file or directory disappears, a directory with everything under it; any other kind of entry is left alone, and every other entry stays as it was |
| `Runtime.RemoveRuntime` | src/awd_cli/runtime/manager.py:185-215 | Removal succeeds exactly when the runtime is supported and installed, its binary is not locked (for a directory, no entry in its tree), and for llm an existing venv is a directory with no locked entry; unsupported or absent runtimes fail with nothing deleted; success removes the binary and, for llm, the venv with its contents; every entry outside those stays as it was; nothing is created |
| `Runtime.LockedChildFailsRemoval` | src/awd_cli/runtime/manager.py:198-215 | A locked entry inside a directory binary makes `rmtree` raise, so removal fails and the tree is still there |
| `Runtime.RemovalLeavesPathLookup` | src/awd_cli/runtime/manager.py:198-202 | After a binary has been removed, availability falls back to the PATH lookup alone |
| `Params.ParseParams` | src/awd_cli/cli.py:515-519 | The parameter map folds the tokens in command-line order, each token with `=` setting its name |
| `Params.SplitAssignment` | src/awd_cli/cli.py:517-518 | A token without `=` is ignored; otherwise it splits at its first `=` into a name without `=` and the rest |
| `Params.SplitAssignmentRoundTrip` | src/awd_cli/cli.py:517-518 | Joining a `=`-free name and any value with `=` and splitting again gives back the pair |
| `Params.ParseParamsNames` | src/awd_cli/cli.py:515-519 | A name is a parameter exactly when some token assigns it |
| `Params.ParseParamsLastWins` | src/awd_cli/cli.py:515-519 | A parameter's value comes from the last token assigning it |
| `Params.LaterTokenWins` | src/awd_cli/cli.py:566-570 | Example: a later token overrides, a token without `=` is skipped, and a value keeps its own `=` |
| `Templates.Placeholder` | src/awd_cli/cli.py:224 | The placeholder of a name is the name between `{{` and `}}` |
| `Templates.Substitute` | src/awd_cli/cli.py:223-224 | The variables are substituted one after another, in argument order, each replacing every occurrence of its placeholder |
| `Templates.LoadTemplateFile` | src/awd_cli/cli.py:211-226 | A missing template fails with the path; otherwise the content is substituted, and with no variables it is unchanged |
| `Templates.SubstituteOne` | src/awd_cli/cli.py:223-224 | One variable replaces every occurrence of its placeholder: the content is placeholder-free pieces joined by the placeholder, and the result is the same pieces joined by the value |
| `Templates.SubstituteWithoutPlaceholders` | src/awd_cli/cli.py:223-224 | Content holding none of the placeholders comes back unchanged |
| `Templates.SubstituteKeepsRest` | src/awd_cli/cli.py:223-224 | Substituting a placeholder where no occurrence of it starts earlier, and none follows, leaves the text before and after it, other placeholders included, verbatim |
| `Templates.UnknownPlaceholderStays` | src/awd_cli/cli.py:223-224 | With brace-free names, a placeholder whose name no variable has is still in the output, whatever the content and the values |
| `Templates.PlaceholdersDoNotOverlap` | src/awd_cli/cli.py:224 | Occurrences of the placeholders of two different brace-free names never overlap |
| `Templates.MissingVariableKeptVerbatim` | src/awd_cli/cli.py:223-224 | Example: `Hello {{name}}, {{missing}}` with only `name` set becomes `Hello <value>, {{missing}}` |
| `Templates.SubstitutionIsSequential` | src/awd_cli/cli.py:223-224 | Variables apply one at a time in argument order, so a value may introduce a placeholder a later variable fills |
| `Scripts.DefaultScript` | src/awd_cli/cli.py:459-464 | The default is `start` exactly when the config is a mapping whose `scripts` holds `start`; no file, an empty file, a mapping without `scripts` or a table without `start` gives none; it raises `TypeError` exactly when one of the `in` tests or the subscript meets a value that does not support it |
| `Scripts.AvailableScripts` | src/awd_cli/cli.py:467-472 | The scripts table is returned when present; without a file, or for any truthy config (mapping, list or string) that does not contain `scripts`, the result is an empty mapping; it raises `TypeError` exactly when the `in` test does, or when a list or string config contains `scripts` and is subscripted |
| `Scripts.DefaultScriptIsAvailable` | src/awd_cli/cli.py:459-472 | Whenever `start` is the default script it is one of the available scripts |
| `Scripts.ResolveScriptName` | src/awd_cli/cli.py:483-485 | A non-empty script argument is used as given; otherwise the default script is used |
| `Scripts.Run` | src/awd_cli/cli.py:479-546 | With no script and no default, run exits 1 and never uses the runner; otherwise it runs the script with the parsed parameters; it exits 0 exactly when the run succeeds or an `ImportError` ends the runner block |
| `Scripts.NamedScriptIgnoresDefault` | src/awd_cli/cli.py:483-528 | A named script reaches the runner under that name, whatever `awd.yml` says |
| `Scripts.ImportErrorInRunIsWarning` | src/awd_cli/cli.py:523-542 | An exception out of `run_script` ends the command like the same exception out of the runner set-up: 0 for `ImportError`, 1 otherwise |
| `Scripts.CompileWithFallback` | src/awd_cli/cli.py:587-624 | An `ImportError` or `NameError` from the first compilation makes the fallback compile again; any other reply stands |
| `Scripts.Preview` | src/awd_cli/cli.py:553-648 | A script absent from the table exits 1 before compiling; a present one is compiled with its command and the parsed parameters; the listed outputs are the compiled paths of the compiled files; an `ImportError` reaching the outer handler exits 0 and any other exception 1 |
| `Scripts.FallbackRetryCompiles` | src/awd_cli/cli.py:619-634 | When the first compilation raises `ImportError` and the retry succeeds, preview exits 0 and lists the retry's files |
| `Scripts.DropTrailingSlashes` | src/awd_cli/cli.py:604 | The path loses only its trailing slashes |
| `Scripts.FileName` | src/awd_cli/cli.py:604 | The file name is the longest `/`-free tail of the path without its trailing slashes |
| `Scripts.Stem` | src/awd_cli/cli.py:604 | The stem is the name up to its last dot when that dot neither opens nor ends the name, and the whole name otherwise |
| `Scripts.OutputName` | src/awd_cli/cli.py:604 | The output name is the stem of the file name with every `.prompt` removed, followed by `.txt` |
| `Scripts.CompiledPath` | src/awd_cli/cli.py:604-606 | Every compiled path is `.awd/compiled/` followed by the output name, and ends in `.txt` |
| `Scripts.StemOfPromptFile` | src/awd_cli/cli.py:604 | The stem of `<base>.prompt.md` is `<base>.prompt`, whatever dots the base holds |
| `Scripts.RemovePromptMarker` | src/awd_cli/cli.py:604 | Removing `.prompt` from `<base>.prompt` leaves the base when no `.prompt` starts inside it |
| `Scripts.PromptFileCompiledPath` | src/awd_cli/cli.py:604-606 | A prompt file `<dir>/<base>.prompt.md`, with no `/` and no `.prompt` inside the base, compiles to `.awd/compiled/<base>.txt` |
| `Scripts.HelloWorldCompiledPath` | src/awd_cli/cli.py:604-606 | `hello-world.prompt.md` compiles to `.awd/compiled/hello-world.txt` |
| `Scripts.DottedBaseCompiledPath` | src/awd_cli/cli.py:604-606 | `v1.2.prompt.md` compiles to `.awd/compiled/v1.2.txt`: dots of the base are kept |
| `ProjectInit.DefaultConfig` | src/awd_cli/cli.py:1007-1014 | The default configuration has the project name, version `1.0.0`, description `A <name> AWD application` and author `Your Name` |
| `ProjectInit.AsMapping` | src/awd_cli/cli.py:996-1001 | A configuration has exactly the keys name, version, description and author |
| `ProjectInit.MergeExistingConfig` | src/awd_cli/cli.py:986-1004 | Each existing setting is kept and each missing one defaults; an unreadable or empty file gives the defaults; a non-mapping raises `AttributeError` |
| `ProjectInit.MergeUnreadableIsDefault` | src/awd_cli/cli.py:988-993 | Merging an unreadable, null or empty file gives exactly the default configuration |
| `ProjectInit.MergeCompleteConfig` | src/awd_cli/cli.py:996-1001 | A file holding a complete configuration merges to that configuration |
| `ProjectInit.MergeIdempotent` | src/awd_cli/cli.py:986-1004 | Merging a merged configuration again changes nothing |
| `ProjectInit.InteractiveSetup` | src/awd_cli/cli.py:941-984 | The questionnaire yields each stripped answer, an empty line taking the default, with the description default using the entered name; it aborts when not confirmed |
| `ProjectInit.QuestionnaireIsTrimmed` | src/awd_cli/cli.py:941-944 | Every setting the questionnaire yields has no whitespace at either end |
| `ProjectInit.AcceptingDefaultsGivesDefaults` | src/awd_cli/cli.py:941-944 | Accepting every default, for a default name without surrounding whitespace, gives exactly the default configuration |
| `ProjectInit.ProjectName` | src/awd_cli/cli.py:273-285 | The project is named by a given name other than `.`, otherwise by the current directory |
| `ProjectInit.ExistingFiles` | src/awd_cli/cli.py:288-295 | The existing files are exactly the present ones among `awd.yml`, `hello-world.prompt.md` and `README.md` |
| `ProjectInit.ChooseSource` | src/awd_cli/cli.py:321-328 | The questionnaire runs iff neither `--yes` nor `awd.yml`; merging happens iff `awd.yml` exists without `--force`; defaults apply otherwise |
| `ProjectInit.Init` | src/awd_cli/cli.py:269-328 | Init cancels exactly when it asks about overwriting and is refused; otherwise the configuration comes from the chosen source, and it fails only when merging the existing `awd.yml` fails, with that error |
| `ProjectInit.YesNeverAsks` | src/awd_cli/cli.py:298-328 | With `--yes` init neither cancels nor aborts, and an existing `awd.yml` is merged unless forced |
| `ProjectInit.ForceOnExistingProjectUsesDefaults` | src/awd_cli/cli.py:298-328 | `--force` on an existing project rewrites it from the defaults without asking |
| `Install.Classify` | src/awd_cli/cli.py:429-435 | A dependency counts as installed iff the result is a mapping with a truthy `success`; it has failed iff installing raised or the result is truthy but not a mapping |
| `Install.Attempts` | src/awd_cli/cli.py:426-435 | There is one attempt per dependency, in order, each for the `vscode` client and classified from the reply to that attempt, so a repeated dependency is answered afresh |
| `Install.FailureDoesNotStopLoop` | src/awd_cli/cli.py:426-435 | A dependency whose installation raises is marked failed, and every later dependency is still attempted |
| `Install.RepeatedDependencyAnsweredAgain` | src/awd_cli/cli.py:426-435 | A dependency listed twice is installed twice, and the second reply may differ from the first |
| `Install.McpDependencies` | src/awd_cli/cli.py:387 | Reads `dependencies.mcp`, defaulting to an empty list; a non-mapping level raises `AttributeError` |
| `Install.Characters` | src/awd_cli/cli.py:426 | Iterating a string yields its characters one by one |
| `Install.DependencyItems` | src/awd_cli/cli.py:389-426 | A list is iterated by item and a string by character; numbers and booleans raise `TypeError` |
| `Install.Install` | src/awd_cli/cli.py:371-447 | No file or an unreadable file exits 1; an empty `mcp` exits 0 with no attempts; with the installer ready every dependency (a list item or a character of a string) is attempted and the exit status is 0; an `ImportError` in the installer set-up exits 0 exactly when every dependency is a string; any other set-up exception exits 1 |
| `Install.PartialFailureStillSucceeds` | src/awd_cli/cli.py:424-443 | However many dependencies fail, the command exits 0 with one attempt per dependency |
| `Install.StringDependencyByCharacter` | src/awd_cli/cli.py:426-435 | A string under `mcp` is installed one character at a time |
| `Install.MissingInstallerListsOnly` | src/awd_cli/cli.py:437-440 | Without the installer modules nothing is attempted, and the command exits 0 exactly when every dependency is a string |

## Left out

- Presentation: Rich and colorama output, tables, panels, status symbols, version printing and the lazy imports. None of it feeds back into a decision, with one exception: a panel in `preview` that raises `ImportError` or `NameError` also sends the command to its fallback display. Scripts.CompileWithFallback sends it there only when the first compilation raises.
- HTTP transport, the request URL and JSON decoding. The registry is seen only through its listing and detail replies.
- Subprocesses and temporary files: the setup script runs, the `--version` query with its timeout, and `get_embedded_script` path probing. Their outcomes are parameters.
- File-system mutation outside `remove_runtime`: `mkdir`, `chdir` and the file writes of `init`. Existing files are a set of names; `_create_project_files` is not modelled beyond template substitution.
- YAML parsing. A document arrives as a `Value`, and a read or parse error is `Unreadable`.
- `awd_cli.core.script_runner`, `core.operations` and `factory` are not part of this model. Only their replies at the call sites are modelled.
- Exceptions from those modules are told apart only as `ImportError`, `NameError` or any other exception, because the `except` clauses around the calls distinguish no more than that. The exception message is not modelled.
- Install.DependencyItems and Install.Install: a mapping is a Dafny `map`, so key order is lost; both answer `None` for a `dependencies.mcp` mapping, which Python iterates by key in file order.
- Oracles are fixed snapshots: the registry's listing and detail replies, the version query and the script runner each answer a given request the same way every time, so a repeated request (such as the name scan of `find_server_by_reference` looking up a listed server whose id is the reference its direct lookup just tried) gets the same reply. Only the installer is told which attempt it answers.
- `str(value)` conversion for template variables: values are taken as already-converted strings.
- Strings.Lower: covers the ASCII and Latin-1 upper-case letters only; Python lower-cases the whole of Unicode.
- A listing body whose `servers` or `metadata` key is present but JSON `null`: `.get` then returns `None`, and `metadata.get` raises `AttributeError` (or the empty page is `None`). The model's listing body has these keys as present or missing only.
- YAML scalars other than null, booleans, integers and strings, such as floats and dates (`version: 1.0`): `Values.Value` has no constructor for them, so such a document is outside the model.
- Runtime.DeleteBinary and Runtime.RemoveRuntime: a tree removal that meets a locked entry fails with nothing of that tree deleted, while `shutil.rmtree` may already have deleted the entries it reached first.
- Server fields that are present but JSON `null`, or not strings, make `search_servers` raise in Python; the model's servers carry optional strings only.
- Scripts.FileName: follows `pathlib` for separators and trailing slashes, but not for its other normalisations (`.` components, repeated separators).
- Scripts.Stem: follows the `pathlib` suffix rule where the last dot must neither open nor end the name.
- Exceptions a command raises in presentation code, and the `SystemExit` of an aborted questionnaire, are reduced to exit codes and outcomes.
- The `list`, `config` and `runtime` sub-commands only present what the modelled functions return.

=== FILE: install.dfy ===
/**
 `awd install`: the MCP dependencies listed under `dependencies.mcp` in
 `awd.yml`, each handed to `install_package('vscode', dep)` in turn. A
 failing dependency is reported and the loop goes on; the command still
 finishes normally.

 `install_package` and the package-manager factory are not part of this
 model: they are parameters.
 */
module Install {
  import opened Wrappers
  import opened Values

  /** The MCP client every dependency is installed for. */
  const Client := "vscode"

  /** What `install_package` did: returned a result, or raised. */
  datatype InstallReply = Returned(result: Value) | InstallRaised

  /** How one dependency is reported: installed, "may have issues", or failed. */
  datatype Status = Installed | MayHaveIssues | Failed

  /**
   `result and result.get('success')`, inside the per-dependency guard: a
   truthy result that is not a mapping has no `get`, and that error is
   reported as a failure of this dependency.
   */
  function Classify(reply: InstallReply): (s: Status)
    ensures s == Installed <==>
              && reply.Returned? && reply.result.Dict?
              && "success" in reply.result.entries && Truthy(reply.result.entries["success"])
    ensures s == Failed <==> reply.InstallRaised? || (Truthy(reply.result) && !reply.result.Dict?)
  {
    match reply
    case InstallRaised => Failed
    case Returned(result) =>
      if !Truthy(result) then MayHaveIssues
      else
        match Get(result, "success", Null)
        case Failure(_) => Failed
        case Success(success) => if Truthy(success) then Installed else MayHaveIssues
  }

  /** One dependency and how its installation was reported. */
  datatype Attempt = Attempt(dependency: Value, status: Status)

  /**
   The installer as the loop sees it: the client, the position of the
   attempt and the dependency. `install_package` changes the system, so a
   dependency listed twice may be answered differently the second time.
   */
  type InstallFn = (string, nat, Value) -> InstallReply

  /** The attempts for `deps[from..]`, numbered by their position in `deps`. */
  function AttemptsFrom(deps: seq<Value>, from: nat, install: InstallFn): (attempts: seq<Attempt>)
    requires from <= |deps|
    ensures |attempts| == |deps| - from
    ensures forall i :: from <= i < |deps| ==>
              attempts[i - from].dependency == deps[i] && attempts[i - from].status == Classify(install(Client, i, deps[i]))
    decreases |deps| - from
  {
    if from == |deps| then []
    else [Attempt(deps[from], Classify(install(Client, from, deps[from])))] + AttemptsFrom(deps, from + 1, install)
  }

  /**
   The install loop: `install_package(Client, dep)` for each dependency,
   in order, whatever happened to the ones before it.
   */
  function Attempts(deps: seq<Value>, install: InstallFn): (attempts: seq<Attempt>)
    ensures |attempts| == |deps|
    ensures forall i :: 0 <= i < |deps| ==>
              attempts[i].dependency == deps[i] && attempts[i].status == Classify(install(Client, i, deps[i]))
  {
    AttemptsFrom(deps, 0, install)
  }

  /** An exception for one dependency does not stop the loop: every later dependency is still attempted. */
  lemma FailureDoesNotStopLoop(deps: seq<Value>, install: InstallFn, j: int)
    requires 0 <= j < |deps| && install(Client, j, deps[j]).InstallRaised?
    ensures Attempts(deps, install)[j].status == Failed
    ensures forall k :: j < k < |deps| ==> Attempts(deps, install)[k].dependency == deps[k]
  {
  }

  /**
   A dependency listed twice is installed twice, and the second reply
   stands on its own: here the first attempt installs it and the second raises.
   */
  lemma RepeatedDependencyAnsweredAgain(d: Value)
    ensures var install: InstallFn := (c, i, dep) => if i == 0 then Returned(Dict(map["success" := Bool(true)])) else InstallRaised;
            && Attempts([d, d], install)[0] == Attempt(d, Installed)
            && Attempts([d, d], install)[1] == Attempt(d, Failed)
  {
    var install: InstallFn := (c, i, dep) => if i == 0 then Returned(Dict(map["success" := Bool(true)])) else InstallRaised;
    assert Classify(install(Client, 0, d)) == Installed;
  }

  /** `config.get('dependencies', {}).get('mcp', [])`. */
  function McpDependencies(config: Value): (r: Result<Value, PyError>)
    ensures r.Success? <==> config.Dict? && ("dependencies" in config.entries ==> config.entries["dependencies"].Dict?)
    ensures config.Dict? && "dependencies" !in config.entries ==> r == Success(List([]))
    ensures config.Dict? && "dependencies" in config.entries && config.entries["dependencies"].Dict? ==>
              var table := config.entries["dependencies"].entries;
              r == Success(if "mcp" in table then table["mcp"] else List([]))
    ensures r.Failure? ==> r.error == AttributeError
  {
    var dependencies :- Get(config, "dependencies", EmptyDict);
    Get(dependencies, "mcp", List([]))
  }

  /** Iterating a string: its characters, each a one-character string. */
  function Characters(s: string): (items: seq<Value>)
    ensures |items| == |s|
    ensures forall i :: 0 <= i < |s| ==> items[i] == Str([s[i]])
  {
    seq(|s|, i requires 0 <= i < |s| => Str([s[i]]))
  }

  /**
   The items a truthy `mcp` value is iterated as: a list's items or a
   string's characters. Numbers and booleans have no `len` (`TypeError`).
   A mapping iterates over its keys in file order, which the model does
   not keep: `None`.
   */
  function DependencyItems(mcp: Value): (r: Option<Result<seq<Value>, PyError>>)
    requires Truthy(mcp)
    ensures r.None? <==> mcp.Dict?
    ensures mcp.List? ==> r == Some(Success(mcp.items))
    ensures mcp.Str? ==> r == Some(Success(Characters(mcp.s)))
    ensures mcp.Int? || mcp.Bool? ==> r == Some(Failure(TypeError))
  {
    match mcp
    case List(items) => Some(Success(items))
    case Str(s) => Some(Success(Characters(s)))
    case Dict(_) => None
    case _ => Some(Failure(TypeError))
  }

  /** `awd.yml` was read and its `dependencies.mcp` is truthy and iterates as `deps`. */
  predicate IteratesOver(file: Option<ReadResult>, deps: seq<Value>) {
    && file.Some? && file.value.Parsed?
    && McpDependencies(file.value.document).Success?
    && Truthy(McpDependencies(file.value.document).value)
    && DependencyItems(McpDependencies(file.value.document).value) == Some(Success(deps))
  }

  /** `', '.join(mcp_deps)` works only when every dependency is a string. */
  predicate AllStrings(deps: seq<Value>) {
    forall i :: 0 <= i < |deps| ==> deps[i].Str?
  }

  /**
   The installer: importing its modules or `create_package_manager()` may
   raise (missing modules are `InstallerRaised(ImportError)`); otherwise
   `install_package`.
   */
  datatype Installer =
    | InstallerRaised(exception: Raised)
    | InstallerReady(install: InstallFn)

  /** Exit status of `awd install` and the dependencies it attempted. */
  datatype InstallOutcome = InstallOutcome(exitCode: int, attempts: seq<Attempt>)

  /**
   `awd install` given `awd.yml` (`None` when there is no such file).
   `None` stands for a `mcp` mapping, whose iteration order is outside the
   model. An `ImportError` from the installer set-up only lists the
   dependencies, which exits 1 when one of them is not a string; any other
   exception there exits 1.
   */
  function Install(file: Option<ReadResult>, installer: Installer): (o: Option<InstallOutcome>)
    ensures file.None? || file == Some(Unreadable) ==> o == Some(InstallOutcome(1, []))
    ensures file.Some? && file.value.Parsed? && McpDependencies(file.value.document).Failure? ==>
              o == Some(InstallOutcome(1, []))
    ensures file.Some? && file.value.Parsed? && McpDependencies(file.value.document).Success? &&
            !Truthy(McpDependencies(file.value.document).value) ==>
              o == Some(InstallOutcome(0, []))
    ensures o.None? <==>
              && file.Some? && file.value.Parsed? && McpDependencies(file.value.document).Success?
              && McpDependencies(file.value.document).value.Dict?
              && Truthy(McpDependencies(file.value.document).value)
    ensures file.Some? && file.value.Parsed? && McpDependencies(file.value.document).Success? &&
            Truthy(McpDependencies(file.value.document).value) &&
            DependencyItems(McpDependencies(file.value.document).value) == Some(Failure(TypeError)) ==>
              o == Some(InstallOutcome(1, []))
    ensures forall deps :: IteratesOver(file, deps) && installer.InstallerReady? ==>
              o == Some(InstallOutcome(0, Attempts(deps, installer.install)))
    ensures forall deps :: IteratesOver(file, deps) && installer == InstallerRaised(ImportError) ==>
              o == Some(InstallOutcome(if AllStrings(deps) then 0 else 1, []))
    ensures forall deps :: IteratesOver(file, deps) && installer.InstallerRaised? && installer.exception != ImportError ==>
              o == Some(InstallOutcome(1, []))
    ensures o.Some? && |o.value.attempts| > 0 ==> o.value.exitCode == 0 && installer.InstallerReady?
  {
    match file
    case None => Some(InstallOutcome(1, []))
    case Some(Unreadable) => Some(InstallOutcome(1, []))
    case Some(Parsed(config)) =>
      match McpDependencies(config)
      case Failure(_) => Some(InstallOutcome(1, []))
      case Success(mcp) =>
        if !Truthy(mcp) then Some(InstallOutcome(0, []))
        else
          match DependencyItems(mcp)
          case None => None
          case Some(Failure(_)) => Some(InstallOutcome(1, []))
          case Some(Success(deps)) =>
            match installer
            case InstallerRaised(e) =>
              Some(InstallOutcome(if e == ImportError && AllStrings(deps) then 0 else 1, []))
            case InstallerReady(install) => Some(InstallOutcome(0, Attempts(deps, install)))
  }

  /** The `awd.yml` document whose `dependencies.mcp` is `mcp`. */
  function WithMcp(mcp: Value): Value {
    Dict(map["dependencies" := Dict(map["mcp" := mcp])])
  }

  /**
   However many dependencies fail, the command completes normally once the
   installer is available: exit status 0 and one attempt per dependency.
   */
  lemma PartialFailureStillSucceeds(deps: seq<Value>, install: InstallFn)
    requires |deps| > 0
    ensures && Install(Some(Parsed(WithMcp(List(deps)))), InstallerReady(install))
               == Some(InstallOutcome(0, Attempts(deps, install)))
            && |Attempts(deps, install)| == |deps|
  {
    assert McpDependencies(WithMcp(List(deps))) == Success(List(deps));
    assert IteratesOver(Some(Parsed(WithMcp(List(deps)))), deps);
  }

  /** A string under `mcp` is installed character by character, as Python iterates it. */
  lemma StringDependencyByCharacter(s: string, install: InstallFn)
    requires s != ""
    ensures var o := Install(Some(Parsed(WithMcp(Str(s)))), InstallerReady(install));
            && o == Some(InstallOutcome(0, Attempts(Characters(s), install)))
            && forall i :: 0 <= i < |s| ==> o.value.attempts[i].dependency == Str([s[i]])
  {
    assert McpDependencies(WithMcp(Str(s))) == Success(Str(s));
    assert IteratesOver(Some(Parsed(WithMcp(Str(s)))), Characters(s));
  }

  /**
   Without the installer modules the dependencies are only listed: exit 0
   exactly when they are all strings, and nothing is attempted.
   */
  lemma MissingInstallerListsOnly(deps: seq<Value>)
    requires |deps| > 0
    ensures var o := Install(Some(Parsed(WithMcp(List(deps)))), InstallerRaised(ImportError));
            && o.Some? && o.value.attempts == []
            && (o.value.exitCode == 0 <==> AllStrings(deps))
  {
    assert McpDependencies(WithMcp(List(deps))) == Success(List(deps));
    assert IteratesOver(Some(Parsed(WithMcp(List(deps)))), deps);
  }
}

=== FILE: params.dfy ===
/**
 The `--param name=value` options of `awd run` and `awd preview`, folded
 into a parameter map in command-line order.
 */
module Params {
  import opened Wrappers
  import Strings

  /** `token.split('=', 1)` for a token that contains `=`; `None` for one that does not. */
  function SplitAssignment(token: string): (r: Option<(string, string)>)
    ensures r.None? <==> '=' !in token
    ensures r.Some? ==> token == r.value.0 + "=" + r.value.1 && '=' !in r.value.0
  {
    match Strings.IndexOf(token, '=')
    case None => None
    case Some(i) =>
      assert token == token[..i] + "=" + token[i + 1..];
      Some((token[..i], token[i + 1..]))
  }

  /** A name without `=` and any value, joined as a token, split back into the same pair. */
  lemma SplitAssignmentRoundTrip(name: string, value: string)
    requires '=' !in name
    ensures SplitAssignment(name + "=" + value) == Some((name, value))
  {
    var token := name + "=" + value;
    assert token[|name|] == '=';
    assert forall j :: 0 <= j < |name| ==> token[j] == name[j];
    var i := Strings.IndexOf(token, '=').value;
    assert i == |name|;
    assert token[..i] == name;
    assert token[i + 1..] == value;
  }

  /** The token assigns the parameter `name`. */
  predicate Assigns(token: string, name: string) {
    SplitAssignment(token).Some? && SplitAssignment(token).value.0 == name
  }

  /** Token `i` is the last one assigning its parameter. */
  predicate IsLastAssignment(tokens: seq<string>, i: int) {
    && 0 <= i < |tokens|
    && SplitAssignment(tokens[i]).Some?
    && forall j :: i < j < |tokens| ==> !Assigns(tokens[j], SplitAssignment(tokens[i]).value.0)
  }

  /** The parameter map of `run`/`preview`, built token by token as the loop of `run` and `preview` does. */
  function ParseParams(tokens: seq<string>): map<string, string>
  {
    if |tokens| == 0 then map[]
    else
      var earlier := ParseParams(tokens[..|tokens| - 1]);
      match SplitAssignment(tokens[|tokens| - 1])
      case None => earlier
      case Some((name, value)) => earlier[name := value]
  }

  /** A name is a parameter exactly when some token assigns it; tokens without `=` are ignored. */
  lemma {:induction false} ParseParamsNames(tokens: seq<string>, name: string)
    ensures name in ParseParams(tokens) <==> exists i :: 0 <= i < |tokens| && Assigns(tokens[i], name)
  {
    if |tokens| > 0 {
      var init := tokens[..|tokens| - 1];
      ParseParamsNames(init, name);
      if Assigns(tokens[|tokens| - 1], name) {
        assert name in ParseParams(tokens);
      } else {
        assert name in ParseParams(tokens) <==> name in ParseParams(init);
        if exists i :: 0 <= i < |tokens| && Assigns(tokens[i], name) {
          var i :| 0 <= i < |tokens| && Assigns(tokens[i], name);
          assert init[i] == tokens[i];
        }
        if exists i :: 0 <= i < |init| && Assigns(init[i], name) {
          var i :| 0 <= i < |init| && Assigns(init[i], name);
          assert tokens[i] == init[i];
        }
      }
    }
  }

  /**
   The value of a parameter is the text after the first `=` of the last
   token assigning it: later tokens override earlier ones, and values may
   themselves contain `=`.
   */
  lemma {:induction false} ParseParamsLastWins(tokens: seq<string>, i: int)
    requires IsLastAssignment(tokens, i)
    ensures SplitAssignment(tokens[i]).value.0 in ParseParams(tokens)
    ensures ParseParams(tokens)[SplitAssignment(tokens[i]).value.0] == SplitAssignment(tokens[i]).value.1
    decreases |tokens|
  {
    var init := tokens[..|tokens| - 1];
    if i < |init| {
      assert init[i] == tokens[i];
      assert !Assigns(tokens[|tokens| - 1], SplitAssignment(tokens[i]).value.0);
      assert forall j :: i < j < |init| ==> init[j] == tokens[j];
      assert IsLastAssignment(init, i);
      ParseParamsLastWins(init, i);
    }
  }

  /** A later assignment overrides, a token without `=` is skipped, and a value keeps its own `=`. */
  lemma LaterTokenWins()
    ensures ParseParams(["b=1", "x", "b=2=3"]) == map["b" := "2=3"]
  {
    SplitAssignmentRoundTrip("b", "1");
    SplitAssignmentRoundTrip("b", "2=3");
    assert "b" + "=" + "1" == "b=1";
    assert "b" + "=" + "2=3" == "b=2=3";
    assert SplitAssignment("x").None?;
    var tokens := ["b=1", "x", "b=2=3"];
    assert tokens[..2] == ["b=1", "x"];
    assert tokens[..2][..1] == ["b=1"];
    assert ["b=1"][..0] == [];
    assert ParseParams(["b=1"]) == map["b" := "1"];
    assert ParseParams(["b=1", "x"]) == map["b" := "1"];
  }
}

=== FILE: project_init.dfy ===
/**
 `awd init`: the project name, the guard against overwriting an existing
 project, the choice between the questionnaire, the existing `awd.yml` and
 the defaults, and the configuration each of them yields.

 The answers typed at the prompts and at the overwrite confirmation are
 parameters; the files are described by the set of names present in the
 project directory.
 */
module ProjectInit {
  import opened Wrappers
  import Strings
  import opened Values

  const DefaultVersion := "1.0.0"
  const DefaultAuthor := "Your Name"
  const ConfigFile := "awd.yml"
  const PromptFile := "hello-world.prompt.md"
  const ReadmeFile := "README.md"

  /** The four settings an `awd.yml` is written from; merged values may be of any YAML type. */
  datatype ProjectConfig = ProjectConfig(name: Value, version: Value, description: Value, author: Value)

  /** The default description, `A <name> AWD application`. */
  function DefaultDescription(name: string): (d: string)
    ensures Strings.StartsWith(d, "A " + name)
  {
    assert ("A " + name + " AWD application")[..|"A " + name|] == "A " + name;
    "A " + name + " AWD application"
  }

  /** `_get_default_config(project_name)`. */
  function DefaultConfig(projectName: string): (c: ProjectConfig)
    ensures c.name == Str(projectName)
    ensures c.version == Str(DefaultVersion) && c.author == Str(DefaultAuthor)
    ensures c.description == Str(DefaultDescription(projectName))
  {
    ProjectConfig(Str(projectName), Str(DefaultVersion), Str(DefaultDescription(projectName)), Str(DefaultAuthor))
  }

  /** The configuration as the mapping `awd init` writes, keyed by setting name. */
  function AsMapping(c: ProjectConfig): (v: Value)
    ensures v.Dict? && v.entries.Keys == {"name", "version", "description", "author"}
  {
    Dict(map["name" := c.name, "version" := c.version, "description" := c.description, "author" := c.author])
  }

  /* ---------- merging an existing awd.yml ---------- */

  /**
   `_merge_existing_config(default_name)`: every setting the file has is
   kept and every missing one takes its default. An unreadable or empty
   file counts as an empty mapping; a document that is not a mapping makes
   `.get` raise `AttributeError`, which the read guard does not catch.
   */
  function MergeExistingConfig(defaultName: string, read: ReadResult): (r: Result<ProjectConfig, PyError>)
    ensures read.Unreadable? || (read.Parsed? && !Truthy(read.document)) ==> r == Success(DefaultConfig(defaultName))
    ensures read.Parsed? && Truthy(read.document) && !read.document.Dict? ==> r == Failure(AttributeError)
    ensures read.Parsed? && read.document.Dict? ==>
              r.Success? && AsMapping(r.value).entries == (
                map k | k in AsMapping(DefaultConfig(defaultName)).entries ::
                  if k in read.document.entries then read.document.entries[k]
                  else AsMapping(DefaultConfig(defaultName)).entries[k])
  {
    var existing := if read.Parsed? && Truthy(read.document) then read.document else EmptyDict;
    var defaults := DefaultConfig(defaultName);
    // The first `.get` raises exactly when `existing` is not a mapping; the other three then succeed.
    var name :- Get(existing, "name", defaults.name);
    Success(ProjectConfig(name, Get(existing, "version", defaults.version).value,
                          Get(existing, "description", defaults.description).value,
                          Get(existing, "author", defaults.author).value))
  }

  /** Without a readable, non-empty `awd.yml`, merging gives exactly the defaults. */
  lemma MergeUnreadableIsDefault(defaultName: string)
    ensures MergeExistingConfig(defaultName, Unreadable) == Success(DefaultConfig(defaultName))
    ensures MergeExistingConfig(defaultName, Parsed(Null)) == Success(DefaultConfig(defaultName))
    ensures MergeExistingConfig(defaultName, Parsed(EmptyDict)) == Success(DefaultConfig(defaultName))
  {
  }

  /**
   A file holding a complete configuration merges to that configuration,
   whatever the default name: merging is idempotent.
   */
  lemma MergeCompleteConfig(defaultName: string, c: ProjectConfig)
    ensures MergeExistingConfig(defaultName, Parsed(AsMapping(c))) == Success(c)
  {
    assert "name" in AsMapping(c).entries;
  }

  /** Merging the result of a merge again changes nothing. */
  lemma MergeIdempotent(defaultName: string, read: ReadResult)
    requires MergeExistingConfig(defaultName, read).Success?
    ensures var c := MergeExistingConfig(defaultName, read).value;
            MergeExistingConfig(defaultName, Parsed(AsMapping(c))) == Success(c)
  {
    MergeCompleteConfig(defaultName, MergeExistingConfig(defaultName, read).value);
  }

  /* ---------- the questionnaire ---------- */

  /**
   What was typed at the four prompts. `None`, or an empty line, accepts the
   offered default, as `click.prompt` does; anything else is taken as typed.
   */
  datatype Answers = Answers(name: Option<string>, version: Option<string>,
                             description: Option<string>, author: Option<string>)

  /** The value one prompt returns: the typed line, or the default for no or an empty line. */
  function Answer(typed: Option<string>, default: string): (r: string)
    ensures typed.None? || typed == Some("") ==> r == default
    ensures typed.Some? && typed.value != "" ==> r == typed.value
  {
    if typed.Some? && typed.value != "" then typed.value else default
  }

  /**
   `_interactive_project_setup(default_name)`: each answer, or its default,
   stripped; the description's default uses the name just entered. `None`
   when the summary is not confirmed (the command exits 0).
   */
  function InteractiveSetup(defaultName: string, answers: Answers, confirmed: bool): (r: Option<ProjectConfig>)
    ensures r.Some? <==> confirmed
    ensures r.Some? ==> var name := Strings.Strip(Answer(answers.name, defaultName));
              && r.value.name == Str(name)
              && r.value.version == Str(Strings.Strip(Answer(answers.version, DefaultVersion)))
              && r.value.description == Str(Strings.Strip(Answer(answers.description, DefaultDescription(name))))
              && r.value.author == Str(Strings.Strip(Answer(answers.author, DefaultAuthor)))
  {
    var name := Strings.Strip(Answer(answers.name, defaultName));
    var version := Strings.Strip(Answer(answers.version, DefaultVersion));
    var description := Strings.Strip(Answer(answers.description, DefaultDescription(name)));
    var author := Strings.Strip(Answer(answers.author, DefaultAuthor));
    if confirmed then Some(ProjectConfig(Str(name), Str(version), Str(description), Str(author))) else None
  }

  /** Every setting the questionnaire yields is a trimmed string. */
  lemma QuestionnaireIsTrimmed(defaultName: string, answers: Answers)
    requires InteractiveSetup(defaultName, answers, true).Some?
    ensures var c := InteractiveSetup(defaultName, answers, true).value;
            && c.name.Str? && Strings.Trimmed(c.name.s)
            && c.version.Str? && Strings.Trimmed(c.version.s)
            && c.description.Str? && Strings.Trimmed(c.description.s)
            && c.author.Str? && Strings.Trimmed(c.author.s)
  {
    var name := Strings.Strip(Answer(answers.name, defaultName));
    Strings.StripIdempotent(Answer(answers.name, defaultName));
    Strings.StripIdempotent(Answer(answers.version, DefaultVersion));
    Strings.StripIdempotent(Answer(answers.description, DefaultDescription(name)));
    Strings.StripIdempotent(Answer(answers.author, DefaultAuthor));
  }

  /**
   Accepting every offered default, for a default name without surrounding
   whitespace, gives exactly the default configuration.
   */
  lemma {:induction false} AcceptingDefaultsGivesDefaults(defaultName: string)
    requires Strings.Trimmed(defaultName)
    ensures InteractiveSetup(defaultName, Answers(None, None, None, None), true) == Some(DefaultConfig(defaultName))
  {
    Strings.StripTrimmed(defaultName);
    Strings.StripTrimmed(DefaultVersion);
    Strings.StripTrimmed(DefaultAuthor);
    var d := DefaultDescription(defaultName);
    assert d[0] == 'A' && d[|d| - 1] == 'n';
    Strings.StripTrimmed(d);
  }

  /* ---------- the init command ---------- */

  /**
   The project name: a given name other than `.` (which also becomes the
   project directory), otherwise the name of the current directory.
   */
  function ProjectName(argument: Option<string>, cwdName: string): (name: string)
    ensures argument == Some(".") || argument == Some("") || argument.None? ==> name == cwdName
    ensures argument.Some? && argument.value !in {"", "."} ==> name == argument.value
  {
    if argument.Some? && argument.value != "." && argument.value != "" then argument.value else cwdName
  }

  /** The project files already present, in the order they are reported. */
  function ExistingFiles(present: set<string>): (files: seq<string>)
    ensures forall f :: f in files <==> f in present && f in {ConfigFile, PromptFile, ReadmeFile}
    ensures |files| <= 3
  {
    (if ConfigFile in present then [ConfigFile] else [])
    + (if PromptFile in present then [PromptFile] else [])
    + (if ReadmeFile in present then [ReadmeFile] else [])
  }

  /** Where the configuration comes from. */
  datatype ConfigSource = Interactive | MergeExisting | Defaults

  /**
   The questionnaire runs exactly when `--yes` is not given and there is no
   `awd.yml`; otherwise an existing `awd.yml` is merged unless `--force` is
   given, and the defaults are used in the remaining cases.
   */
  function ChooseSource(yes: bool, force: bool, configExists: bool): (s: ConfigSource)
    ensures s == Interactive <==> !yes && !configExists
    ensures s == MergeExisting <==> configExists && !force
    ensures s == Defaults <==> (yes && !configExists) || (configExists && force)
  {
    if !yes && !configExists then Interactive
    else if configExists && !force then MergeExisting
    else Defaults
  }

  /** How `awd init` ends. */
  datatype InitOutcome =
    | Cancelled
    | Aborted
    | Initialized(source: ConfigSource, config: ProjectConfig)
    | InitFailed(error: PyError)

  /** The user must confirm overwriting: project files exist and neither `--force` nor `--yes` is given. */
  predicate AsksToOverwrite(present: set<string>, force: bool, yes: bool) {
    |ExistingFiles(present)| > 0 && !force && !yes
  }

  /**
   `awd init [project_name] [--force] [--yes]`, up to the configuration the
   project files are written from. `overwrite` is the answer to the
   overwrite question, `answers` and `confirmed` those to the questionnaire,
   and `read` what reading the existing `awd.yml` gives.
   */
  function Init(argument: Option<string>, cwdName: string, force: bool, yes: bool, present: set<string>,
                overwrite: bool, answers: Answers, confirmed: bool, read: ReadResult): (o: InitOutcome)
    ensures o == Cancelled <==> AsksToOverwrite(present, force, yes) && !overwrite
    ensures o.Initialized? ==> o.source == ChooseSource(yes, force, ConfigFile in present)
    ensures o.Initialized? && o.source == Defaults ==> o.config == DefaultConfig(ProjectName(argument, cwdName))
    ensures o.Initialized? && o.source == MergeExisting ==>
              Success(o.config) == MergeExistingConfig(ProjectName(argument, cwdName), read)
    ensures o.Initialized? && o.source == Interactive ==>
              Some(o.config) == InteractiveSetup(ProjectName(argument, cwdName), answers, confirmed)
    ensures o == Aborted ==> ChooseSource(yes, force, ConfigFile in present) == Interactive && !confirmed
    ensures o.InitFailed? ==>
              && ChooseSource(yes, force, ConfigFile in present) == MergeExisting
              && MergeExistingConfig(ProjectName(argument, cwdName), read) == Failure(o.error)
    ensures !AsksToOverwrite(present, force, yes) && ChooseSource(yes, force, ConfigFile in present) == Defaults ==>
              o == Initialized(Defaults, DefaultConfig(ProjectName(argument, cwdName)))
  {
    var name := ProjectName(argument, cwdName);
    if AsksToOverwrite(present, force, yes) && !overwrite then Cancelled
    else
      match ChooseSource(yes, force, ConfigFile in present)
      case Interactive =>
        (match InteractiveSetup(name, answers, confirmed)
         case None => Aborted
         case Some(config) => Initialized(Interactive, config))
      case MergeExisting =>
        (match MergeExistingConfig(name, read)
         case Failure(e) => InitFailed(e)
         case Success(config) => Initialized(MergeExisting, config))
      case Defaults => Initialized(Defaults, DefaultConfig(name))
  }

  /** With `--yes` nothing is asked: init never cancels, and an existing `awd.yml` is merged unless forced. */
  lemma YesNeverAsks(argument: Option<string>, cwdName: string, force: bool, present: set<string>,
                     overwrite: bool, answers: Answers, confirmed: bool, read: ReadResult)
    ensures var o := Init(argument, cwdName, force, true, present, overwrite, answers, confirmed, read);
            && o != Cancelled && o != Aborted
            && (ConfigFile in present && !force ==> o.Initialized? ==> o.source == MergeExisting)
  {
  }

  /** `--force` on an existing project rewrites it from the defaults without asking. */
  lemma ForceOnExistingProjectUsesDefaults(argument: Option<string>, cwdName: string, yes: bool, present: set<string>,
                                           overwrite: bool, answers: Answers, confirmed: bool, read: ReadResult)
    requires ConfigFile in present
    ensures Init(argument, cwdName, true, yes, present, overwrite, answers, confirmed, read)
            == Initialized(Defaults, DefaultConfig(ProjectName(argument, cwdName)))
  {
  }
}

=== FILE: registry.dfy ===
/**
 The MCP registry client: registry URL choice, the paginated listing, the
 client-side search filter, the detail lookup, and the two lookup strategies
 used to resolve a server reference.

 The HTTP registry is replaced by two oracles: the reply to a listing
 request with given query parameters, and the reply to a detail request for
 a given server id.
 */
module Registry {
  import opened Wrappers
  import opened Values
  import Strings

  const DemoRegistryUrl := "https://demo.registry.azure-mcp.net"
  const RegistryUrlVariable := "MCP_REGISTRY_URL"
  const DefaultLimit := 100

  /** One entry of a listing page; a key missing from the JSON object is `None`. */
  datatype Server = Server(id: Option<string>, name: Option<string>, description: Option<string>)

  datatype Metadata = Metadata(nextCursor: Option<string>)

  /** The decoded body of `GET /v0/servers`; `servers` and `metadata` may be missing. */
  datatype ListBody = ListBody(servers: Option<seq<Server>>, metadata: Option<Metadata>)

  datatype ListReply = Listed(body: ListBody) | ListFailed
  datatype DetailReply = Detail(body: Value) | DetailFailed

  datatype ParamValue = IntParam(n: int) | StrParam(s: string)
  type QueryParams = map<string, ParamValue>

  /** The remote catalog, seen only through its replies. */
  datatype Registry = Registry(list: QueryParams -> ListReply, detail: string -> DetailReply)

  /** `Transport` is a failed request; `NotFound` the `ValueError` for an empty body; `MissingId` the `KeyError` of `server["id"]`. */
  datatype RegistryError = Transport | NotFound(serverId: string) | MissingId

  /* ---------- construction and listing ---------- */

  /**
   The registry URL: the argument when it is a non-empty string, otherwise
   the environment variable when it is set (even to ""), otherwise the demo registry.
   */
  function RegistryUrl(argument: Option<string>, environment: map<string, string>): (url: string)
    ensures argument.Some? && argument.value != "" ==> url == argument.value
    ensures (argument.None? || argument.value == "") && RegistryUrlVariable in environment ==>
              url == environment[RegistryUrlVariable]
    ensures (argument.None? || argument.value == "") && RegistryUrlVariable !in environment ==>
              url == DemoRegistryUrl
  {
    if argument.Some? && argument.value != "" then argument.value
    else if RegistryUrlVariable in environment then environment[RegistryUrlVariable]
    else DemoRegistryUrl
  }

  /** The query parameters of a listing request: `limit` and `cursor` only when given. */
  function ListParams(limit: Option<int>, cursor: Option<string>): (params: QueryParams)
    ensures params.Keys <= {"limit", "cursor"}
    ensures "limit" in params <==> limit.Some?
    ensures "cursor" in params <==> cursor.Some?
    ensures limit.Some? ==> params["limit"] == IntParam(limit.value)
    ensures cursor.Some? ==> params["cursor"] == StrParam(cursor.value)
  {
    var withLimit: QueryParams := if limit.Some? then map["limit" := IntParam(limit.value)] else map[];
    if cursor.Some? then withLimit["cursor" := StrParam(cursor.value)] else withLimit
  }

  /**
   `list_servers(limit, cursor)`: one page of servers and the next cursor.
   A missing `servers` key gives an empty page; missing metadata gives no cursor.
   */
  function ListServers(reg: Registry, limit: Option<int>, cursor: Option<string>)
    : (r: Result<(seq<Server>, Option<string>), RegistryError>)
    ensures reg.list(ListParams(limit, cursor)).ListFailed? <==> r == Failure(Transport)
    ensures r.Success? <==> reg.list(ListParams(limit, cursor)).Listed?
    ensures r.Success? ==>
              var body := reg.list(ListParams(limit, cursor)).body;
              && (body.servers.None? ==> r.value.0 == [])
              && (body.servers.Some? ==> r.value.0 == body.servers.value)
              && (body.metadata.None? ==> r.value.1 == None)
              && (body.metadata.Some? ==> r.value.1 == body.metadata.value.nextCursor)
  {
    match reg.list(ListParams(limit, cursor))
    case ListFailed => Failure(Transport)
    case Listed(body) =>
      var servers := body.servers.GetOr([]);
      var next := if body.metadata.Some? then body.metadata.value.nextCursor else None;
      Success((servers, next))
  }

  /** How the registry reads a listing request: the `limit` and `cursor` it was sent, if any. */
  function ReadListParams(params: QueryParams): (Option<int>, Option<string>) {
    ( if "limit" in params && params["limit"].IntParam? then Some(params["limit"].n) else None,
      if "cursor" in params && params["cursor"].StrParam? then Some(params["cursor"].s) else None )
  }

  /** The request carries exactly the limit and cursor it was built from. */
  lemma ListParamsRoundTrip(limit: Option<int>, cursor: Option<string>)
    ensures ReadListParams(ListParams(limit, cursor)) == (limit, cursor)
  {
  }

  /** The body a registry sends for one page of servers and its next cursor. */
  function PageBody(servers: seq<Server>, next: Option<string>): ListBody {
    ListBody(Some(servers), Some(Metadata(next)))
  }

  /** A page sent by the registry is listed back as exactly those servers and that cursor. */
  lemma ListServersReadsPage(reg: Registry, limit: Option<int>, cursor: Option<string>,
                             servers: seq<Server>, next: Option<string>)
    requires reg.list(ListParams(limit, cursor)) == Listed(PageBody(servers, next))
    ensures ListServers(reg, limit, cursor) == Success((servers, next))
  {
  }

  /** The first page, as requested by every lookup: `list_servers()` with its defaults. */
  function FirstPage(reg: Registry): Result<(seq<Server>, Option<string>), RegistryError> {
    ListServers(reg, Some(DefaultLimit), None)
  }

  /* ---------- search ---------- */

  /** The case-insensitive match of `search_servers`; a missing field reads as "". */
  predicate Matches(server: Server, query: string)
    ensures Matches(server, query) ==>
              |query| <= |server.name.GetOr("")| || |query| <= |server.description.GetOr("")|
  {
    var q := Strings.Lower(query);
    || Strings.Contains(Strings.Lower(server.name.GetOr("")), q)
    || Strings.Contains(Strings.Lower(server.description.GetOr("")), q)
  }

  /** `a` is `b` with some elements dropped, order kept. */
  predicate IsSubsequence<T(==)>(a: seq<T>, b: seq<T>)
    decreases |b|
  {
    if |a| == 0 then true
    else if |b| == 0 then false
    else (a[0] == b[0] && IsSubsequence(a[1..], b[1..])) || IsSubsequence(a, b[1..])
  }

  /**
   The servers of a page that match the query: every matching server with
   its full multiplicity, no other server, in page order.
   */
  function MatchingServers(page: seq<Server>, query: string): (r: seq<Server>)
    ensures IsSubsequence(r, page)
    ensures forall s :: multiset(r)[s] == (if Matches(s, query) then multiset(page)[s] else 0)
  {
    if |page| == 0 then []
    else
      var rest := MatchingServers(page[1..], query);
      assert page == [page[0]] + page[1..];
      if Matches(page[0], query) then
        assert ([page[0]] + rest)[1..] == rest;
        [page[0]] + rest
      else
        rest
  }

  /** `search_servers(query)`: a client-side filter over the first page only. */
  function SearchServers(reg: Registry, query: string): (r: Result<seq<Server>, RegistryError>)
    ensures FirstPage(reg).Failure? ==> r == Failure(Transport)
    ensures r.Success? <==> FirstPage(reg).Success?
    ensures r.Success? ==>
              && IsSubsequence(r.value, FirstPage(reg).value.0)
              && (forall s :: s in FirstPage(reg).value.0 ==> (s in r.value <==> Matches(s, query)))
              && forall s :: multiset(r.value)[s] == (if Matches(s, query) then multiset(FirstPage(reg).value.0)[s] else 0)
  {
    var (page, _) :- FirstPage(reg);
    Success(MatchingServers(page, query))
  }

  /** Every server matches the empty query, so it returns the whole page. */
  lemma {:induction false} EmptyQueryKeepsPage(page: seq<Server>)
    ensures MatchingServers(page, "") == page
  {
    if |page| > 0 {
      assert Strings.Lower("") == "";
      Strings.ContainsEmpty(Strings.Lower(page[0].name.GetOr("")));
      assert Matches(page[0], "");
      EmptyQueryKeepsPage(page[1..]);
      assert page == [page[0]] + page[1..];
    }
  }

  /** The match ignores the case of the query. */
  lemma MatchIgnoresQueryCase(server: Server, query: string)
    ensures Matches(server, query) <==> Matches(server, Strings.Lower(query))
  {
    Strings.LowerIdempotent(query);
  }

  /* ---------- detail lookups ---------- */

  /** `get_server_info(id)`: the detail body, or `NotFound` when the body is falsy. */
  function GetServerInfo(reg: Registry, id: string): (r: Result<Value, RegistryError>)
    ensures r.Success? <==> reg.detail(id).Detail? && Truthy(reg.detail(id).body)
    ensures r.Success? ==> r.value == reg.detail(id).body
    ensures reg.detail(id).DetailFailed? ==> r == Failure(Transport)
    ensures reg.detail(id).Detail? && !Truthy(reg.detail(id).body) ==> r == Failure(NotFound(id))
  {
    match reg.detail(id)
    case DetailFailed => Failure(Transport)
    case Detail(body) => if Truthy(body) then Success(body) else Failure(NotFound(id))
  }

  /** `get_server_info(server["id"])` for a listed server. */
  function ServerDetail(reg: Registry, server: Server): Result<Value, RegistryError> {
    if server.id.None? then Failure(MissingId) else GetServerInfo(reg, server.id.value)
  }

  /** Index of the first server named `name`, as the loop of `get_server_by_name` finds it. */
  function FirstNamed(servers: seq<Server>, name: string): (k: Option<nat>)
    ensures k.None? <==> forall j :: 0 <= j < |servers| ==> servers[j].name != Some(name)
    ensures k.Some? ==> k.value < |servers| && servers[k.value].name == Some(name)
                        && forall j :: 0 <= j < k.value ==> servers[j].name != Some(name)
  {
    if |servers| == 0 then None
    else if servers[0].name == Some(name) then Some(0)
    else
      match FirstNamed(servers[1..], name)
      case None => None
      case Some(k) => Some(k + 1)
  }

  /** `k` is the index of the first server named `name`. */
  predicate IsFirstNamed(servers: seq<Server>, name: string, k: int) {
    && 0 <= k < |servers|
    && servers[k].name == Some(name)
    && forall j :: 0 <= j < k ==> servers[j].name != Some(name)
  }

  /** A detail lookup seen as the optional answer of a lookup by name. */
  function AsFound(detail: Result<Value, RegistryError>): Result<Option<Value>, RegistryError> {
    match detail
    case Success(d) => Success(Some(d))
    case Failure(e) => Failure(e)
  }

  /**
   `get_server_by_name(name)`: the detail of the first listed server with that
   name; errors of that one detail lookup propagate.
   */
  function GetServerByName(reg: Registry, name: string): (r: Result<Option<Value>, RegistryError>)
    ensures FirstPage(reg).Failure? ==> r == Failure(Transport)
    ensures FirstPage(reg).Success? && (forall j :: 0 <= j < |FirstPage(reg).value.0| ==>
              FirstPage(reg).value.0[j].name != Some(name)) ==>
              r == Success(None)
    ensures forall k :: FirstPage(reg).Success? && IsFirstNamed(FirstPage(reg).value.0, name, k) ==>
              r == AsFound(ServerDetail(reg, FirstPage(reg).value.0[k]))
  {
    var (page, _) :- FirstPage(reg);
    match FirstNamed(page, name)
    case None => Success(None)
    case Some(k) =>
      assert forall k' :: IsFirstNamed(page, name, k') ==> k' == k;
      AsFound(ServerDetail(reg, page[k]))
  }

  /** A listed server with the wanted name whose detail lookup succeeds. */
  predicate Yields(reg: Registry, server: Server, name: string) {
    server.name == Some(name) && ServerDetail(reg, server).Success?
  }

  /**
   The exact-name scan of `find_server_by_reference`: a matching server whose
   detail lookup fails is skipped and the scan goes on.
   */
  function ScanByName(reg: Registry, servers: seq<Server>, name: string): (r: Option<Value>)
    ensures r.None? <==> forall j :: 0 <= j < |servers| ==> !Yields(reg, servers[j], name)
    ensures r.Some? ==> exists k :: 0 <= k < |servers| && Yields(reg, servers[k], name)
                          && r.value == ServerDetail(reg, servers[k]).value
                          && forall j :: 0 <= j < k ==> !Yields(reg, servers[j], name)
  {
    if |servers| == 0 then None
    else if Yields(reg, servers[0], name) then Some(ServerDetail(reg, servers[0]).value)
    else
      var r := ScanByName(reg, servers[1..], name);
      if r.Some? then
        var k :| 0 <= k < |servers[1..]| && Yields(reg, servers[1..][k], name)
                 && r.value == ServerDetail(reg, servers[1..][k]).value
                 && forall j :: 0 <= j < k ==> !Yields(reg, servers[1..][j], name);
        assert Yields(reg, servers[k + 1], name);
        r
      else
        r
  }

  /** The shape test for a server id: 36 characters with exactly four hyphens. */
  predicate LooksLikeServerId(reference: string) {
    |reference| == 36 && Strings.Count(reference, '-') == 4
  }

  /** A canonical UUID, five hyphen-free groups of 8, 4, 4, 4 and 12 characters, has the shape of a server id. */
  lemma CanonicalUuidLooksLikeId(a: string, b: string, c: string, d: string, e: string)
    requires |a| == 8 && |b| == 4 && |c| == 4 && |d| == 4 && |e| == 12
    requires '-' !in a && '-' !in b && '-' !in c && '-' !in d && '-' !in e
    ensures LooksLikeServerId(a + "-" + b + "-" + c + "-" + d + "-" + e)
  {
    var id := a + "-" + b + "-" + c + "-" + d + "-" + e;
    assert multiset(id) == multiset(a) + multiset("-") + multiset(b) + multiset("-") + multiset(c)
                           + multiset("-") + multiset(d) + multiset("-") + multiset(e);
  }

  /**
   `find_server_by_reference(reference)`: a direct id lookup when the
   reference looks like an id and that lookup succeeds; otherwise the
   exact-name scan of the first page.
   */
  function FindServerByReference(reg: Registry, reference: string): (r: Result<Option<Value>, RegistryError>)
    ensures LooksLikeServerId(reference) && GetServerInfo(reg, reference).Success? ==>
              r == Success(Some(reg.detail(reference).body))
    ensures !(LooksLikeServerId(reference) && GetServerInfo(reg, reference).Success?) ==>
              && (FirstPage(reg).Failure? ==> r == Failure(Transport))
              && (FirstPage(reg).Success? ==> r == Success(ScanByName(reg, FirstPage(reg).value.0, reference)))
  {
    if LooksLikeServerId(reference) && GetServerInfo(reg, reference).Success? then
      Success(Some(GetServerInfo(reg, reference).value))
    else
      var (page, _) :- FirstPage(reg);
      Success(ScanByName(reg, page, reference))
  }

  /**
   A successful direct lookup decides the answer: two registries that agree
   on that one detail reply answer alike, whatever they list.
   */
  lemma DirectLookupIgnoresListing(reg1: Registry, reg2: Registry, reference: string)
    requires LooksLikeServerId(reference)
    requires reg1.detail(reference) == reg2.detail(reference)
    requires GetServerInfo(reg1, reference).Success?
    ensures FindServerByReference(reg1, reference) == FindServerByReference(reg2, reference)
  {
  }

  /**
   Whenever `get_server_by_name` finds a detail, the name scan of
   `find_server_by_reference` finds the same one (the reference not looking
   like an id).
   */
  lemma FindAgreesWithGetByName(reg: Registry, name: string)
    requires !LooksLikeServerId(name)
    requires GetServerByName(reg, name).Success? && GetServerByName(reg, name).value.Some?
    ensures FindServerByReference(reg, name) == GetServerByName(reg, name)
  {
    var page := FirstPage(reg).value.0;
    var k := FirstNamed(page, name).value;
    assert Yields(reg, page[k], name);
    var r := ScanByName(reg, page, name);
    var k' :| 0 <= k' < |page| && Yields(reg, page[k'], name)
              && r.value == ServerDetail(reg, page[k']).value
              && forall j :: 0 <= j < k' ==> !Yields(reg, page[j], name);
    assert k' == k;
  }
}

=== FILE: runtime.dfy ===
/**
 The runtime manager: the closed set of supported AI runtimes, the
 availability check, the preference order, setup, removal and listing.

 The host is explicit: the home directory, the file-system entries by path,
 and the binaries the PATH lookup finds. Setup scripts and version queries
 are oracles that report what the subprocess did.
 */
module Runtime {
  import opened Wrappers
  import Strings

  datatype RuntimeInfo = RuntimeInfo(script: string, description: string, binary: string)

  const Codex := "codex"
  const Llm := "llm"

  /** The supported runtimes, keyed by name. */
  const Supported: map<string, RuntimeInfo> := map[
    Codex := RuntimeInfo("setup-codex.sh", "OpenAI Codex CLI with GitHub Models support", "codex"),
    Llm := RuntimeInfo("setup-llm.sh", "Simon Willison's LLM library with multiple providers", "llm")
  ]

  /** The order in which the supported runtimes are declared, and so listed. */
  const DeclarationOrder: seq<string> := [Codex, Llm]

  const CommonScript := "setup-common.sh"
  const LlmVenv := "llm-venv"
  const UnknownVersion := "unknown"

  /** What stands at a path: a regular file, a directory, or anything else (a socket, a device). */
  datatype Node = File | Directory | Special

  datatype Host = Host(home: string, fs: map<string, Node>, onPath: set<string>)

  /* ---------- paths ---------- */

  /** `Path(dir) / name` for a single-component name. */
  function JoinPath(dir: string, name: string): string {
    if |dir| > 0 && dir[|dir| - 1] == '/' then dir + name else dir + "/" + name
  }

  /** `~/.awd/runtimes`. */
  function RuntimeDir(home: string): string {
    JoinPath(JoinPath(home, ".awd"), "runtimes")
  }

  function BinaryPath(home: string, name: string): string
    requires name in Supported
  {
    JoinPath(RuntimeDir(home), Supported[name].binary)
  }

  /** `path` lies strictly inside the directory `dir`. */
  predicate IsUnder(path: string, dir: string) {
    Strings.StartsWith(path, dir + "/")
  }

  /* ---------- availability and preference ---------- */

  /** The managed binary exists and is a regular file. */
  predicate ManagedBinaryIsFile(host: Host, name: string)
    requires name in Supported
  {
    BinaryPath(host.home, name) in host.fs && host.fs[BinaryPath(host.home, name)] == File
  }

  /**
   `is_runtime_available(name)`: an unsupported name never is; a managed
   binary that is a regular file makes it available whatever PATH holds;
   otherwise the PATH lookup decides.
   */
  function IsRuntimeAvailable(host: Host, name: string): (available: bool)
    ensures name !in Supported ==> !available
    ensures name in Supported && ManagedBinaryIsFile(host, name) ==> available
    ensures name in Supported && !ManagedBinaryIsFile(host, name) ==>
              (available <==> Supported[name].binary in host.onPath)
  {
    if name !in Supported then false
    else
      var managed := BinaryPath(host.home, name);
      if managed in host.fs && host.fs[managed] == File then true
      else Supported[name].binary in host.onPath
  }

  /** `get_runtime_preference()`: a fixed order over exactly the supported runtimes. */
  function RuntimePreference(): (order: seq<string>)
    ensures |order| == |Supported.Keys|
    ensures forall i, j :: 0 <= i < j < |order| ==> order[i] != order[j]
    ensures forall n :: n in order <==> n in Supported
    ensures order[0] == Codex
  {
    [Codex, Llm]
  }

  /** The first name of `order` that is available. */
  function FirstAvailable(host: Host, order: seq<string>): (r: Option<string>)
    ensures r.None? <==> forall i :: 0 <= i < |order| ==> !IsRuntimeAvailable(host, order[i])
    ensures r.Some? ==> exists k :: 0 <= k < |order| && order[k] == r.value
                          && IsRuntimeAvailable(host, order[k])
                          && forall j :: 0 <= j < k ==> !IsRuntimeAvailable(host, order[j])
  {
    if |order| == 0 then None
    else if IsRuntimeAvailable(host, order[0]) then Some(order[0])
    else
      var r := FirstAvailable(host, order[1..]);
      if r.Some? then
        var k :| 0 <= k < |order[1..]| && order[1..][k] == r.value
                 && IsRuntimeAvailable(host, order[1..][k])
                 && forall j :: 0 <= j < k ==> !IsRuntimeAvailable(host, order[1..][j]);
        assert order[k + 1] == r.value;
        r
      else
        r
  }

  /**
   `get_available_runtime()`: codex whenever it is available, llm when only
   llm is, and nothing when neither is.
   */
  function GetAvailableRuntime(host: Host): (r: Option<string>)
    ensures IsRuntimeAvailable(host, Codex) ==> r == Some(Codex)
    ensures !IsRuntimeAvailable(host, Codex) && IsRuntimeAvailable(host, Llm) ==> r == Some(Llm)
    ensures !IsRuntimeAvailable(host, Codex) && !IsRuntimeAvailable(host, Llm) ==> r == None
  {
    var order := RuntimePreference();
    var r := FirstAvailable(host, order);
    assert r.Some? ==> r.value == Codex || r.value == Llm;
    r
  }

  /* ---------- setup ---------- */

  /** What a subprocess did: it exited with a code, or launching it raised. */
  datatype ExecResult = Exited(code: int) | Raised

  datatype Invocation = Invocation(script: string, args: seq<string>)
  datatype SetupResult = SetupResult(ok: bool, ran: Option<Invocation>)

  /** The setup script arguments: the version when it is a non-empty string, then `--vanilla` when asked. */
  function SetupArgs(version: Option<string>, vanilla: bool): (args: seq<string>)
    ensures |args| == (if version.Some? && version.value != "" then 1 else 0) + (if vanilla then 1 else 0)
    ensures version.Some? && version.value != "" ==> args[0] == version.value
    ensures vanilla ==> args[|args| - 1] == "--vanilla"
  {
    (if version.Some? && version.value != "" then [version.value] else [])
    + (if vanilla then ["--vanilla"] else [])
  }

  /** Reading the setup arguments back: a trailing `--vanilla` flag, and the version before it, if any. */
  function ReadSetupArgs(args: seq<string>): (Option<string>, bool) {
    var vanilla := |args| > 0 && args[|args| - 1] == "--vanilla";
    var rest := if vanilla then args[..|args| - 1] else args;
    (if |rest| > 0 then Some(rest[0]) else None, vanilla)
  }

  /**
   The setup arguments carry the version and the vanilla flag: both come
   back, an empty version reading as none, except for the version string
   `--vanilla` itself (see `SetupArgsAmbiguity`).
   */
  lemma SetupArgsRoundTrip(version: Option<string>, vanilla: bool)
    requires version != Some("--vanilla")
    ensures ReadSetupArgs(SetupArgs(version, vanilla)) == (if version == Some("") then None else version, vanilla)
  {
    var args := SetupArgs(version, vanilla);
    if vanilla {
      assert args[..|args| - 1] == (if version.Some? && version.value != "" then [version.value] else []);
    }
  }

  /** A version spelled `--vanilla` cannot be told from the flag: the argument lists coincide. */
  lemma SetupArgsAmbiguity()
    ensures SetupArgs(Some("--vanilla"), false) == SetupArgs(None, true)
  {
  }

  /**
   `setup_runtime(name, version, vanilla)`: an unsupported name fails without
   running anything; a setup or common script that cannot be loaded fails
   without running anything; otherwise the runtime's script runs and success
   is exactly exit code 0.
   */
  function SetupRuntime(name: string, version: Option<string>, vanilla: bool,
                        scriptFound: string -> bool, execute: Invocation -> ExecResult): (r: SetupResult)
    ensures name !in Supported ==> !r.ok && r.ran.None?
    ensures r.ran.Some? <==> name in Supported && scriptFound(Supported[name].script) && scriptFound(CommonScript)
    ensures r.ran.Some? ==> r.ran.value == Invocation(Supported[name].script, SetupArgs(version, vanilla))
    ensures r.ok <==> r.ran.Some? && execute(r.ran.value) == Exited(0)
  {
    if name !in Supported then SetupResult(false, None)
    else
      var script := Supported[name].script;
      if !scriptFound(script) || !scriptFound(CommonScript) then SetupResult(false, None)
      else
        var call := Invocation(script, SetupArgs(version, vanilla));
        SetupResult(execute(call) == Exited(0), Some(call))
  }

  /* ---------- listing ---------- */

  /** What the `--version` query reported. */
  datatype VersionQuery = Completed(code: int, stdout: string) | QueryRaised

  datatype RuntimeStatus = RuntimeStatus(
    name: string, description: string, installed: bool, path: Option<string>, version: Option<string>)

  /** The version entry: stripped output on exit 0, "unknown" when the query raised, none otherwise. */
  function VersionOf(query: VersionQuery): (v: Option<string>)
    ensures query.QueryRaised? ==> v == Some(UnknownVersion)
    ensures query.Completed? && query.code != 0 ==> v.None?
    ensures query.Completed? && query.code == 0 ==> v == Some(Strings.Strip(query.stdout))
  {
    match query
    case QueryRaised => Some(UnknownVersion)
    case Completed(code, out) => if code == 0 then Some(Strings.Strip(out)) else None
  }

  /**
   One entry of `list_runtimes()`: installed when anything exists at the
   managed path, and only then a path and possibly a version.
   */
  function StatusOf(host: Host, name: string, versionOf: string -> VersionQuery): (s: RuntimeStatus)
    requires name in Supported
    ensures s.name == name && s.description == Supported[name].description
    ensures s.installed <==> BinaryPath(host.home, name) in host.fs
    ensures s.path == (if s.installed then Some(BinaryPath(host.home, name)) else None)
    ensures s.version.Some? ==> s.installed
    ensures s.installed ==> s.version == VersionOf(versionOf(BinaryPath(host.home, name)))
  {
    var path := BinaryPath(host.home, name);
    var installed := path in host.fs;
    RuntimeStatus(name, Supported[name].description, installed,
                  if installed then Some(path) else None,
                  if installed then VersionOf(versionOf(path)) else None)
  }

  /**
   `list_runtimes()`: one entry per supported runtime in declaration order;
   installed means the managed path exists; the path is given exactly when
   installed; a version only ever appears for an installed runtime.
   */
  function ListRuntimes(host: Host, versionOf: string -> VersionQuery): (r: seq<RuntimeStatus>)
    ensures |r| == |DeclarationOrder| == |Supported.Keys|
    ensures forall i :: 0 <= i < |r| ==> r[i].name == DeclarationOrder[i]
    ensures forall n :: n in Supported <==> exists i :: 0 <= i < |r| && r[i].name == n
    ensures forall i :: 0 <= i < |r| ==>
              var s := r[i];
              && s.name in Supported
              && s.description == Supported[s.name].description
              && (s.installed <==> BinaryPath(host.home, s.name) in host.fs)
              && (s.path.Some? <==> s.installed)
              && (s.installed ==> s.path == Some(BinaryPath(host.home, s.name)))
              && (s.version.Some? ==> s.installed)
              && (s.installed ==> s.version == VersionOf(versionOf(s.path.value)))
  {
    var r := [StatusOf(host, Codex, versionOf), StatusOf(host, Llm, versionOf)];
    assert r[0].name == Codex && r[1].name == Llm;
    r
  }

  /** A managed regular-file binary is listed as installed and is available. */
  lemma ManagedFileIsListedAndAvailable(host: Host, versionOf: string -> VersionQuery, i: nat)
    requires i < |DeclarationOrder|
    requires ManagedBinaryIsFile(host, DeclarationOrder[i])
    ensures ListRuntimes(host, versionOf)[i].installed
    ensures IsRuntimeAvailable(host, ListRuntimes(host, versionOf)[i].name)
  {
  }

  /* ---------- removal ---------- */

  /** `shutil.rmtree(dir)`: the directory and everything inside it disappear. */
  function RemoveTree(fs: map<string, Node>, dir: string): (fs': map<string, Node>)
    ensures forall p :: p in fs' <==> p in fs && p != dir && !IsUnder(p, dir)
    ensures forall p :: p in fs' ==> fs'[p] == fs[p]
  {
    map p | p in fs && p != dir && !IsUnder(p, dir) :: fs[p]
  }

  datatype RemoveResult = RemoveResult(ok: bool, fs: map<string, Node>)

  /** Some entry at or under `dir` cannot be deleted, so removing `dir` as a tree raises. */
  predicate TreeLocked(fs: map<string, Node>, dir: string, locked: set<string>) {
    exists p :: p in locked && p in fs && (p == dir || IsUnder(p, dir))
  }

  /**
   Deleting the managed binary: a file is unlinked, a directory removed as
   a tree, anything else left alone. Deleting a path in `locked` raises; a
   tree removal raises when any entry in the tree is locked.
   */
  function DeleteBinary(fs: map<string, Node>, path: string, locked: set<string>): (r: Option<map<string, Node>>)
    requires path in fs
    ensures r.None? <==> (fs[path] == File && path in locked) || (fs[path] == Directory && TreeLocked(fs, path, locked))
    ensures r.Some? && fs[path] == Special ==> r.value == fs
    ensures r.Some? && fs[path] != Special ==> path !in r.value
    ensures r.Some? && fs[path] == Directory ==> forall p :: IsUnder(p, path) ==> p !in r.value
    ensures r.Some? ==> forall p :: p in fs && p != path && !IsUnder(p, path) ==> p in r.value
    ensures r.Some? && fs[path] == File ==> forall p :: p in fs && p != path ==> p in r.value
    ensures r.Some? ==> forall p :: p in r.value ==> p in fs && r.value[p] == fs[p]
  {
    match fs[path]
    case File => if path in locked then None else Some(fs - {path})
    case Directory => if TreeLocked(fs, path, locked) then None else Some(RemoveTree(fs, path))
    case Special => Some(fs)
  }

  /** The `llm-venv` directory next to the managed binaries. */
  function LlmVenvPath(home: string): string {
    JoinPath(RuntimeDir(home), LlmVenv)
  }

  /** The venv and everything inside it lie outside the llm binary and its tree. */
  lemma VenvOutsideBinary(home: string, p: string)
    requires p == LlmVenvPath(home) || IsUnder(p, LlmVenvPath(home))
    ensures p != BinaryPath(home, Llm)
    ensures !IsUnder(p, BinaryPath(home, Llm))
  {
    var d := RuntimeDir(home);
    var prefix := if |d| > 0 && d[|d| - 1] == '/' then d else d + "/";
    assert BinaryPath(home, Llm) == prefix + "llm";
    assert LlmVenvPath(home) == prefix + "llm-venv";
    assert p[|prefix| + 3] == (prefix + "llm-venv")[|prefix| + 3] == '-';
    assert (prefix + "llm" + "/")[|prefix| + 3] == '/';
  }

  /** Removing the binary leaves the venv tree, so its lock status, as it was. */
  lemma VenvTreeUnchanged(host: Host, fs1: map<string, Node>, locked: set<string>)
    requires BinaryPath(host.home, Llm) in host.fs
    requires DeleteBinary(host.fs, BinaryPath(host.home, Llm), locked) == Some(fs1)
    ensures LlmVenvPath(host.home) in fs1 <==> LlmVenvPath(host.home) in host.fs
    ensures LlmVenvPath(host.home) in fs1 ==> fs1[LlmVenvPath(host.home)] == host.fs[LlmVenvPath(host.home)]
    ensures TreeLocked(fs1, LlmVenvPath(host.home), locked) <==> TreeLocked(host.fs, LlmVenvPath(host.home), locked)
  {
    var venv := LlmVenvPath(host.home);
    VenvOutsideBinary(host.home, venv);
    if TreeLocked(host.fs, venv, locked) {
      var p :| p in locked && p in host.fs && (p == venv || IsUnder(p, venv));
      VenvOutsideBinary(host.home, p);
      assert p in fs1;
    }
  }

  /**
   `remove_runtime(name)`. Deleting a locked path raises, which
   `remove_runtime` reports as failure. The llm runtime also loses its
   `llm-venv` directory; `rmtree` on a non-directory there raises. Nothing
   outside the binary, and for llm the venv, is touched.
   */
  function RemoveRuntime(host: Host, name: string, locked: set<string>): (r: RemoveResult)
    ensures name !in Supported ==> r == RemoveResult(false, host.fs)
    ensures name in Supported && BinaryPath(host.home, name) !in host.fs ==> r == RemoveResult(false, host.fs)
    ensures r.ok <==>
              && name in Supported
              && var bin := BinaryPath(host.home, name);
              && bin in host.fs
              && (host.fs[bin] == File ==> bin !in locked)
              && (host.fs[bin] == Directory ==> !TreeLocked(host.fs, bin, locked))
              && (name == Llm && LlmVenvPath(host.home) in host.fs ==>
                    host.fs[LlmVenvPath(host.home)] == Directory && !TreeLocked(host.fs, LlmVenvPath(host.home), locked))
    ensures r.fs.Keys <= host.fs.Keys
    ensures forall p :: p in r.fs ==> r.fs[p] == host.fs[p]
    ensures r.ok && host.fs[BinaryPath(host.home, name)] != Special ==> BinaryPath(host.home, name) !in r.fs
    ensures r.ok && host.fs[BinaryPath(host.home, name)] == Directory ==>
              forall p :: IsUnder(p, BinaryPath(host.home, name)) ==> p !in r.fs
    ensures r.ok && name == Llm ==> LlmVenvPath(host.home) !in r.fs
    ensures r.ok && name == Llm && LlmVenvPath(host.home) in host.fs ==>
              forall p :: IsUnder(p, LlmVenvPath(host.home)) ==> p !in r.fs
    ensures name in Supported ==>
              forall p :: && p in host.fs
                          && p != BinaryPath(host.home, name) && !IsUnder(p, BinaryPath(host.home, name))
                          && (name == Llm ==> p != LlmVenvPath(host.home) && !IsUnder(p, LlmVenvPath(host.home)))
                ==> p in r.fs
  {
    if name !in Supported then RemoveResult(false, host.fs)
    else
      var path := BinaryPath(host.home, name);
      if path !in host.fs then RemoveResult(false, host.fs)
      else
        match DeleteBinary(host.fs, path, locked)
        case None => RemoveResult(false, host.fs)
        case Some(fs1) =>
          if name != Llm then RemoveResult(true, fs1)
          else
            var venv := LlmVenvPath(host.home);
            VenvOutsideBinary(host.home, venv);
            VenvTreeUnchanged(host, fs1, locked);
            if venv !in fs1 then RemoveResult(true, fs1)
            else if fs1[venv] != Directory || TreeLocked(fs1, venv, locked) then RemoveResult(false, fs1)
            else RemoveResult(true, RemoveTree(fs1, venv))
  }

  /**
   A locked entry anywhere inside a directory binary makes the removal fail,
   and the binary tree is still there.
   */
  lemma {:induction false} LockedChildFailsRemoval(host: Host, name: string, locked: set<string>, child: string)
    requires name in Supported && BinaryPath(host.home, name) in host.fs
    requires host.fs[BinaryPath(host.home, name)] == Directory
    requires child in host.fs && child in locked && IsUnder(child, BinaryPath(host.home, name))
    ensures RemoveRuntime(host, name, locked) == RemoveResult(false, host.fs)
  {
    assert TreeLocked(host.fs, BinaryPath(host.home, name), locked);
  }

  /**
   Once a managed regular-file or directory binary has been removed, the
   runtime is available exactly when the PATH lookup finds it.
   */
  lemma RemovalLeavesPathLookup(host: Host, name: string, locked: set<string>)
    requires RemoveRuntime(host, name, locked).ok
    requires host.fs[BinaryPath(host.home, name)] != Special
    ensures var after := Host(host.home, RemoveRuntime(host, name, locked).fs, host.onPath);
            IsRuntimeAvailable(after, name) <==> Supported[name].binary in host.onPath
  {
  }
}

=== FILE: scripts.dfy ===
/**
 Script resolution for `awd run` and `awd preview`: the default `start`
 script, the `scripts` table of `awd.yml`, the guards that decide whether a
 script runner is used at all, and the path a compiled prompt is written to.

 The script runner itself is not part of this model: it is a parameter whose
 replies stand for whatever `run_script` and `_auto_compile_prompts` do.
 */
module Scripts {
  import opened Wrappers
  import Strings
  import opened Values
  import Params

  const DefaultScriptName := "start"
  const ScriptsKey := "scripts"
  const CompiledDir := ".awd/compiled"
  const PromptMarker := ".prompt"
  const CompiledExtension := ".txt"

  /* ---------- the scripts table ---------- */

  /**
   `_get_default_script()` on the loaded `awd.yml` (`None` when there is no
   such file): `start` when the `scripts` table holds it. A document of the
   wrong shape makes Python raise, which the callers report as an error.
   */
  function DefaultScript(config: Option<Value>): (r: Result<Option<string>, PyError>)
    ensures r.Success? && r.value.Some? ==> r.value.value == DefaultScriptName
    ensures r == Success(Some(DefaultScriptName)) <==>
              && config.Some? && config.value.Dict? && ScriptsKey in config.value.entries
              && Membership(DefaultScriptName, config.value.entries[ScriptsKey]) == Success(true)
    ensures config.None? || !Truthy(config.value) ==> r == Success(None)
    ensures config.Some? && config.value.Dict? &&
            (ScriptsKey !in config.value.entries ||
             Membership(DefaultScriptName, config.value.entries[ScriptsKey]) == Success(false)) ==>
              r == Success(None)
    ensures r.Failure? <==>
              && config.Some? && Truthy(config.value)
              && (|| Membership(ScriptsKey, config.value).Failure?
                  || (&& Membership(ScriptsKey, config.value) == Success(true)
                      && (!config.value.Dict? || Membership(DefaultScriptName, config.value.entries[ScriptsKey]).Failure?)))
    ensures r.Failure? ==> r.error == TypeError
  {
    if config.None? || !Truthy(config.value) then Success(None)
    else
      var hasScripts :- Membership(ScriptsKey, config.value);
      if !hasScripts then Success(None)
      else
        var scripts :- Subscript(config.value, ScriptsKey);
        var hasStart :- Membership(DefaultScriptName, scripts);
        Success(if hasStart then Some(DefaultScriptName) else None)
  }

  /** `_list_available_scripts()`: the `scripts` table, or an empty mapping when there is none. */
  function AvailableScripts(config: Option<Value>): (r: Result<Value, PyError>)
    ensures config.Some? && config.value.Dict? && ScriptsKey in config.value.entries ==>
              r == Success(config.value.entries[ScriptsKey])
    ensures config.None? || !Truthy(config.value) ||
            (config.value.Dict? && ScriptsKey !in config.value.entries) ==>
              r == Success(EmptyDict)
    ensures config.Some? && Truthy(config.value) && Membership(ScriptsKey, config.value) == Success(false) ==>
              r == Success(EmptyDict)
    ensures r.Failure? <==>
              && config.Some? && Truthy(config.value)
              && (|| Membership(ScriptsKey, config.value).Failure?
                  || (Membership(ScriptsKey, config.value) == Success(true) && !config.value.Dict?))
    ensures r.Failure? ==> r.error == TypeError
  {
    if config.None? || !Truthy(config.value) then Success(EmptyDict)
    else
      var hasScripts :- Membership(ScriptsKey, config.value);
      if hasScripts then Subscript(config.value, ScriptsKey) else Success(EmptyDict)
  }

  /** Whenever `start` is the default script, it is one of the available scripts. */
  lemma DefaultScriptIsAvailable(config: Option<Value>)
    requires DefaultScript(config) == Success(Some(DefaultScriptName))
    ensures AvailableScripts(config).Success?
    ensures Membership(DefaultScriptName, AvailableScripts(config).value) == Success(true)
  {
  }

  /**
   The script named on the command line, or the default when the argument
   is missing or empty (Python's `if not script_name`).
   */
  function ResolveScriptName(argument: Option<string>, config: Option<Value>): (r: Result<Option<string>, PyError>)
    ensures argument.Some? && argument.value != "" ==> r == Success(Some(argument.value))
    ensures argument.None? || argument.value == "" ==> r == DefaultScript(config)
    ensures r.Success? && r.value.Some? ==> r.value.value != ""
  {
    if argument.Some? && argument.value != "" then Success(Some(argument.value))
    else DefaultScript(config)
  }

  /** The script that `run` and `preview` go on with, if resolution produced one. */
  predicate Resolved(argument: Option<string>, config: Option<Value>) {
    ResolveScriptName(argument, config).Success? && ResolveScriptName(argument, config).value.Some?
  }

  /* ---------- awd run ---------- */

  /** What `ScriptRunner.run_script` did: returned its success flag, or raised. */
  datatype RunReply = Finished(succeeded: bool) | RunRaised(exception: Raised)

  /**
   The script runner: importing its module or constructing it may raise (a
   missing module is `RunnerRaised(ImportError)`), otherwise `run_script`.
   */
  datatype ScriptRunner =
    | RunnerRaised(exception: Raised)
    | Runner(runScript: (string, map<string, string>) -> RunReply)

  /** Exit status of `awd run`, and the `run_script` call it made, if any. */
  datatype RunOutcome = RunOutcome(exitCode: int, request: Option<(string, map<string, string>)>)

  /**
   `awd run [script_name] --param ...`. Without a script and without a
   default, it exits 1 before any runner is built. An `ImportError` raised
   anywhere in the runner block, by the import, the constructor or
   `run_script`, only warns and exits 0; any other exception exits 1.
   Otherwise the exit status is 0 exactly when `run_script` returns true.
   */
  function Run(argument: Option<string>, config: Option<Value>, tokens: seq<string>, runner: ScriptRunner)
    : (o: RunOutcome)
    ensures !Resolved(argument, config) ==> o == RunOutcome(1, None)
    ensures o.request.Some? <==> Resolved(argument, config) && runner.Runner?
    ensures o.request.Some? ==>
              && o.request.value.0 == ResolveScriptName(argument, config).value.value
              && o.request.value.1 == Params.ParseParams(tokens)
    ensures Resolved(argument, config) && runner.RunnerRaised? ==> o.exitCode == ExitAfterRaise(runner.exception)
    ensures o.exitCode == 0 <==>
              && Resolved(argument, config)
              && (|| runner == RunnerRaised(ImportError)
                  || (&& runner.Runner?
                      && runner.runScript(ResolveScriptName(argument, config).value.value, Params.ParseParams(tokens))
                         in {Finished(true), RunRaised(ImportError)}))
    ensures o.exitCode == 0 || o.exitCode == 1
  {
    match ResolveScriptName(argument, config)
    case Failure(_) => RunOutcome(1, None)
    case Success(None) => RunOutcome(1, None)
    case Success(Some(name)) =>
      var params := Params.ParseParams(tokens);
      match runner
      case RunnerRaised(e) => RunOutcome(ExitAfterRaise(e), None)
      case Runner(runScript) =>
        var exitCode := match runScript(name, params)
          case Finished(succeeded) => if succeeded then 0 else 1
          case RunRaised(e) => ExitAfterRaise(e);
        RunOutcome(exitCode, Some((name, params)))
  }

  /** A named script is handed to the runner under that name, whatever `awd.yml` says. */
  lemma NamedScriptIgnoresDefault(name: string, config: Option<Value>, tokens: seq<string>,
                                  runScript: (string, map<string, string>) -> RunReply)
    requires name != ""
    ensures Run(Some(name), config, tokens, Runner(runScript)).request == Some((name, Params.ParseParams(tokens)))
  {
  }

  /**
   An `ImportError` out of `run_script` is reported like a missing runner:
   both exit 0, while any other exception from it exits 1.
   */
  lemma ImportErrorInRunIsWarning(name: string, config: Option<Value>, tokens: seq<string>,
                                  runScript: (string, map<string, string>) -> RunReply)
    requires name != ""
    requires runScript(name, Params.ParseParams(tokens)).RunRaised?
    ensures Run(Some(name), config, tokens, Runner(runScript)).exitCode
            == Run(Some(name), config, tokens, RunnerRaised(runScript(name, Params.ParseParams(tokens)).exception)).exitCode
  {
  }

  /* ---------- awd preview ---------- */

  /** What `_auto_compile_prompts` did: the compiled command and prompt files, or an exception. */
  datatype CompileReply = Compiled(command: string, promptFiles: seq<string>) | CompileRaised(exception: Raised)

  /** What `list_scripts()` did: the scripts table, or an exception. */
  datatype Listing = Listed(scripts: map<string, string>) | ListingRaised(exception: Raised)

  /**
   The runner as `preview` uses it. Importing or constructing it may raise;
   otherwise it has its `list_scripts()` reply and its prompt compiler,
   whose `retry` argument tells the fallback's second call from the first.
   */
  datatype PreviewRunner =
    | PreviewRaised(exception: Raised)
    | PreviewRunner(listing: Listing, compile: (string, map<string, string>, bool) -> CompileReply)

  /**
   Exit status of `awd preview`, the `(command, params)` it compiled, if any,
   and the compiled-file paths it lists.
   */
  datatype PreviewOutcome = PreviewOutcome(exitCode: int, compiled: Option<(string, map<string, string>)>,
                                           outputs: seq<string>)

  /**
   The compilation `preview` ends up with: an `ImportError` or `NameError`
   from the first call sends it to the fallback display, which compiles
   once more; any other reply of the first call stands.
   */
  function CompileWithFallback(compile: (string, map<string, string>, bool) -> CompileReply,
                               command: string, params: map<string, string>): (reply: CompileReply)
    ensures compile(command, params, false).Compiled? ==> reply == compile(command, params, false)
    ensures compile(command, params, false) == CompileRaised(OtherError) ==> reply == compile(command, params, false)
    ensures compile(command, params, false) in {CompileRaised(ImportError), CompileRaised(NameError)} ==>
              reply == compile(command, params, true)
  {
    var first := compile(command, params, false);
    if first.CompileRaised? && first.exception != OtherError then compile(command, params, true) else first
  }

  /**
   `awd preview [script_name] --param ...`. A script missing from the
   runner's table exits 1 before anything is compiled; a present one is
   compiled. An `ImportError` reaching the outer handler only warns and
   exits 0; any other exception exits 1.
   */
  function Preview(argument: Option<string>, config: Option<Value>, tokens: seq<string>, runner: PreviewRunner)
    : (o: PreviewOutcome)
    ensures !Resolved(argument, config) ==> o == PreviewOutcome(1, None, [])
    ensures Resolved(argument, config) && runner.PreviewRaised? ==>
              o == PreviewOutcome(ExitAfterRaise(runner.exception), None, [])
    ensures Resolved(argument, config) && runner.PreviewRunner? && runner.listing.ListingRaised? ==>
              o == PreviewOutcome(ExitAfterRaise(runner.listing.exception), None, [])
    ensures Resolved(argument, config) && runner.PreviewRunner? && runner.listing.Listed? &&
            ResolveScriptName(argument, config).value.value !in runner.listing.scripts ==>
              o == PreviewOutcome(1, None, [])
    ensures o.compiled.Some? <==>
              && Resolved(argument, config) && runner.PreviewRunner? && runner.listing.Listed?
              && ResolveScriptName(argument, config).value.value in runner.listing.scripts
    ensures o.compiled.Some? ==>
              o.compiled.value == (runner.listing.scripts[ResolveScriptName(argument, config).value.value],
                                   Params.ParseParams(tokens))
    ensures o.compiled.Some? ==>
              var reply := CompileWithFallback(runner.compile, o.compiled.value.0, o.compiled.value.1);
              && (o.exitCode == 0 <==> reply.Compiled? || reply == CompileRaised(ImportError))
              && (reply.Compiled? ==>
                    |o.outputs| == |reply.promptFiles|
                    && forall i :: 0 <= i < |reply.promptFiles| ==> o.outputs[i] == CompiledPath(reply.promptFiles[i]))
              && (reply.CompileRaised? ==> o.outputs == [])
    ensures o.exitCode == 0 || o.exitCode == 1
  {
    match ResolveScriptName(argument, config)
    case Failure(_) => PreviewOutcome(1, None, [])
    case Success(None) => PreviewOutcome(1, None, [])
    case Success(Some(name)) =>
      var params := Params.ParseParams(tokens);
      match runner
      case PreviewRaised(e) => PreviewOutcome(ExitAfterRaise(e), None, [])
      case PreviewRunner(listing, compile) =>
        match listing
        case ListingRaised(e) => PreviewOutcome(ExitAfterRaise(e), None, [])
        case Listed(scripts) =>
          if name !in scripts then PreviewOutcome(1, None, [])
          else
            var command := scripts[name];
            match CompileWithFallback(compile, command, params)
            case CompileRaised(e) => PreviewOutcome(ExitAfterRaise(e), Some((command, params)), [])
            case Compiled(_, files) =>
              PreviewOutcome(0, Some((command, params)),
                             seq(|files|, i requires 0 <= i < |files| => CompiledPath(files[i])))
  }

  /**
   A first compilation failing with `ImportError` is retried by the
   fallback; when the retry succeeds, `preview` lists the retry's files.
   */
  lemma FallbackRetryCompiles(name: string, config: Option<Value>, tokens: seq<string>, scripts: map<string, string>,
                              compile: (string, map<string, string>, bool) -> CompileReply)
    requires name != "" && name in scripts
    requires compile(scripts[name], Params.ParseParams(tokens), false) == CompileRaised(ImportError)
    requires compile(scripts[name], Params.ParseParams(tokens), true).Compiled?
    ensures var o := Preview(Some(name), config, tokens, PreviewRunner(Listed(scripts), compile));
            var files := compile(scripts[name], Params.ParseParams(tokens), true).promptFiles;
            && o.exitCode == 0
            && |o.outputs| == |files|
            && forall i :: 0 <= i < |files| ==> o.outputs[i] == CompiledPath(files[i])
  {
  }

  /* ---------- compiled prompt paths ---------- */

  /** The path without the trailing slashes `pathlib` ignores. */
  function DropTrailingSlashes(path: string): (r: string)
    ensures r <= path
    ensures |r| == 0 || r[|r| - 1] != '/'
    ensures forall i :: |r| <= i < |path| ==> path[i] == '/'
  {
    if |path| > 0 && path[|path| - 1] == '/' then DropTrailingSlashes(path[..|path| - 1]) else path
  }

  /**
   `Path(path).name`: the last component, that is the longest `/`-free
   tail of the path once its trailing slashes are gone.
   */
  function FileName(path: string): (r: string)
    ensures '/' !in r
    ensures Strings.EndsWith(DropTrailingSlashes(path), r)
    ensures var t := DropTrailingSlashes(path); |r| < |t| ==> t[|t| - |r| - 1] == '/'
  {
    var trimmed := DropTrailingSlashes(path);
    match Strings.LastIndexOf(trimmed, '/')
    case None =>
      assert trimmed[|trimmed| - |trimmed|..] == trimmed;
      trimmed
    case Some(i) =>
      assert trimmed[|trimmed| - |trimmed[i + 1..]|..] == trimmed[i + 1..];
      trimmed[i + 1..]
  }

  /**
   `Path(...).stem` of a file name: everything before the last `.`, unless
   that dot opens the name or ends it.
   */
  function Stem(name: string): (r: string)
    ensures r <= name
    ensures r != name ==> 0 < |r| && |r| + 1 < |name| && name[|r|] == '.' && '.' !in name[|r| + 1..]
    ensures forall i :: 0 < i < |name| - 1 && name[i] == '.' && '.' !in name[i + 1..] ==> r == name[..i]
  {
    match Strings.LastIndexOf(name, '.')
    case Some(i) =>
      if 0 < i < |name| - 1 then
        assert name[i + 1..] == name[i + 1..|name|];
        name[..i]
      else name
    case None => name
  }

  /** `Path(prompt_file).stem.replace('.prompt', '') + '.txt'`. */
  function OutputName(promptFile: string): (n: string)
    ensures n == Strings.Replace(Stem(FileName(promptFile)), PromptMarker, "") + CompiledExtension
    ensures Strings.EndsWith(n, CompiledExtension)
  {
    var base := Strings.Replace(Stem(FileName(promptFile)), PromptMarker, "");
    assert (base + CompiledExtension)[|base|..] == CompiledExtension;
    base + CompiledExtension
  }

  /**
   The compiled prompt `preview` lists for a prompt file:
   `.awd/compiled/<stem with every ".prompt" removed>.txt`.
   */
  function CompiledPath(promptFile: string): (r: string)
    ensures r == CompiledDir + "/" + OutputName(promptFile)
    ensures Strings.StartsWith(r, CompiledDir + "/")
    ensures Strings.EndsWith(r, CompiledExtension)
  {
    var prefix := CompiledDir + "/";
    var name := OutputName(promptFile);
    Strings.EndsWithAppend(prefix, name, CompiledExtension);
    assert (prefix + name)[..|prefix|] == prefix;
    prefix + name
  }

  /** The last component of `<dir>/<name>` is `name`. */
  lemma FileNameAfterDirectory(dir: string, name: string)
    requires dir == "" || dir[|dir| - 1] == '/'
    requires '/' !in name && |name| > 0
    ensures FileName(dir + name) == name
  {
    var path := dir + name;
    assert path[|path| - 1] == name[|name| - 1];
    assert DropTrailingSlashes(path) == path;
    assert forall j :: |dir| <= j < |path| ==> path[j] == name[j - |dir|];
    if dir == "" {
      assert path == name;
    } else {
      assert path[|dir| - 1] == '/';
      var i := Strings.LastIndexOf(path, '/').value;
      assert i >= |dir| - 1;
      assert i < |dir|;
      assert path[i + 1..] == name;
    }
  }

  /** The stem of `<base>.prompt.md` is `<base>.prompt`, whatever dots the base holds. */
  lemma StemOfPromptFile(base: string)
    ensures Stem(base + ".prompt.md") == base + PromptMarker
  {
    var name := base + ".prompt.md";
    var i := |base| + 7;
    assert name[i] == '.';
    assert name[i + 1] == 'm' && name[i + 2] == 'd';
    var r := Strings.LastIndexOf(name, '.');
    assert r.Some?;
    assert r.value >= i;
    assert r.value <= i;
    assert name[..i] == base + PromptMarker;
  }

  /** No occurrence of `.prompt` starts inside the base of `<base>.prompt`. */
  predicate MarkerOnlyAtEnd(base: string) {
    forall k :: 0 <= k < |base| ==> !Strings.OccursAt(base + PromptMarker, PromptMarker, k)
  }

  /** A base without dots has no `.prompt` inside it. */
  lemma DotFreeBaseHasNoMarker(base: string)
    requires '.' !in base
    ensures MarkerOnlyAtEnd(base)
  {
    var stem := base + PromptMarker;
    forall k | 0 <= k < |base|
      ensures !Strings.OccursAt(stem, PromptMarker, k)
    {
      assert stem[k] == base[k];
      if k + |PromptMarker| <= |stem| {
        assert stem[k..k + |PromptMarker|][0] == stem[k];
      }
    }
  }

  /** Removing `.prompt` from `<base>.prompt` leaves the base when the marker occurs only at the end. */
  lemma RemovePromptMarker(base: string)
    requires MarkerOnlyAtEnd(base)
    ensures Strings.Replace(base + PromptMarker, PromptMarker, "") == base
  {
    var stem := base + PromptMarker;
    forall k | 0 <= k < |base|
      ensures !Strings.StartsWith(stem[k..], PromptMarker)
    {
      Strings.StartsWithDrop(stem, PromptMarker, k);
    }
    Strings.ReplaceAfterPrefix(base, PromptMarker, PromptMarker, "");
    assert !Strings.Contains("", PromptMarker) by {
      assert forall k :: !Strings.OccursAt("", PromptMarker, k);
    }
    Strings.ReplaceLeading(PromptMarker, "", "");
    assert PromptMarker + "" == PromptMarker;
  }

  /**
   A prompt file `<dir>/<base>.prompt.md`, whose base holds no `/` and no
   `.prompt`, is compiled to `.awd/compiled/<base>.txt`.
   */
  lemma PromptFileCompiledPath(dir: string, base: string)
    requires dir == "" || dir[|dir| - 1] == '/'
    requires '/' !in base && MarkerOnlyAtEnd(base)
    ensures CompiledPath(dir + base + ".prompt.md") == CompiledDir + "/" + base + CompiledExtension
  {
    var name := base + ".prompt.md";
    assert '/' !in name by {
      assert forall j :: |base| <= j < |name| ==> name[j] == ".prompt.md"[j - |base|];
    }
    assert dir + base + ".prompt.md" == dir + name;
    FileNameAfterDirectory(dir, name);
    StemOfPromptFile(base);
    RemovePromptMarker(base);
  }

  /** `hello-world.prompt.md`, at the top or in any directory, is compiled to `.awd/compiled/hello-world.txt`. */
  lemma HelloWorldCompiledPath(dir: string)
    requires dir == "" || dir[|dir| - 1] == '/'
    ensures CompiledPath(dir + "hello-world.prompt.md") == ".awd/compiled/hello-world.txt"
  {
    var base := "hello-world";
    assert '.' !in base && '/' !in base by {
      assert forall k :: 0 <= k < |base| ==> base[k] != '.' && base[k] != '/';
    }
    DotFreeBaseHasNoMarker(base);
    assert dir + base + ".prompt.md" == dir + "hello-world.prompt.md" by {
      assert base + ".prompt.md" == "hello-world.prompt.md";
    }
    assert CompiledDir + "/" + base + CompiledExtension == ".awd/compiled/hello-world.txt";
    PromptFileCompiledPath(dir, base);
  }

  /** A base with dots of its own keeps them: `v1.2.prompt.md` is compiled to `.awd/compiled/v1.2.txt`. */
  lemma DottedBaseCompiledPath(dir: string)
    requires dir == "" || dir[|dir| - 1] == '/'
    ensures CompiledPath(dir + "v1.2.prompt.md") == ".awd/compiled/v1.2.txt"
  {
    var base := "v1.2";
    var stem := base + PromptMarker;
    assert stem == "v1.2.prompt";
    assert '/' !in base by {
      assert forall k :: 0 <= k < |base| ==> base[k] != '/';
    }
    forall k | 0 <= k < |base|
      ensures !Strings.OccursAt(stem, PromptMarker, k)
    {
      assert stem[k..k + 7][0] == stem[k];
      assert stem[k..k + 7][1] == stem[k + 1];
    }
    assert dir + base + ".prompt.md" == dir + "v1.2.prompt.md" by {
      assert base + ".prompt.md" == "v1.2.prompt.md";
    }
    assert CompiledDir + "/" + base + CompiledExtension == ".awd/compiled/v1.2.txt";
    PromptFileCompiledPath(dir, base);
  }
}

=== FILE: strings.dfy ===
/**
 Python `str` operations the command-line tool relies on, over `seq<char>`:
 lower-casing, the `in` substring test, `count`, `find`, `replace`,
 `split`/`join` and `strip`.
 */
module Strings {
  import opened Wrappers

  /* ---------- lower-casing ---------- */

  /** Characters `str.lower` maps one-to-one within ASCII and Latin-1. */
  predicate IsUpper(c: char) {
    var u := c as int;
    (0x41 <= u <= 0x5A) || (0xC0 <= u <= 0xDE && u != 0xD7)
  }

  /** One character through `str.lower`: an upper-case letter becomes the letter 32 code points above it. */
  function LowerChar(c: char): (r: char)
    ensures IsUpper(c) ==> r as int == c as int + 32
    ensures !IsUpper(c) ==> r == c
    ensures !IsUpper(r)
  {
    if IsUpper(c) then (c as int + 32) as char else c
  }

  /** `s.lower()`. */
  function Lower(s: string): (r: string)
    ensures |r| == |s|
    ensures forall i :: 0 <= i < |s| && IsUpper(s[i]) ==> r[i] as int == s[i] as int + 32
    ensures forall i :: 0 <= i < |s| && !IsUpper(s[i]) ==> r[i] == s[i]
    ensures forall i :: 0 <= i < |s| ==> !IsUpper(r[i])
  {
    seq(|s|, i requires 0 <= i < |s| => LowerChar(s[i]))
  }

  /** Lower-casing twice is lower-casing once. */
  lemma LowerIdempotent(s: string)
    ensures Lower(Lower(s)) == Lower(s)
  {
    assert forall i :: 0 <= i < |s| ==> Lower(Lower(s))[i] == Lower(s)[i];
  }

  /* ---------- substrings ---------- */

  /** `p` occurs in `s` starting at index `i`. */
  predicate OccursAt(s: string, p: string, i: int) {
    0 <= i && i + |p| <= |s| && s[i..i + |p|] == p
  }

  predicate StartsWith(s: string, p: string) {
    |p| <= |s| && s[..|p|] == p
  }

  predicate EndsWith(s: string, p: string) {
    |p| <= |s| && s[|s| - |p|..] == p
  }

  /** A suffix of `b` is a suffix of `a + b`. */
  lemma EndsWithAppend(a: string, b: string, p: string)
    requires EndsWith(b, p)
    ensures EndsWith(a + b, p)
  {
    assert (a + b)[|a|..] == b;
    assert (a + b)[|a + b| - |p|..] == b[|b| - |p|..];
  }

  /** Occurrences in a suffix are the occurrences of the whole string, shifted. */
  lemma OccursDrop(s: string, p: string, k: int, i: int)
    requires 0 <= k <= |s| && 0 <= i
    ensures OccursAt(s[k..], p, i) <==> OccursAt(s, p, i + k)
  {
    if i + |p| <= |s| - k {
      assert s[k..][i..i + |p|] == s[i + k..i + k + |p|];
    }
  }

  /** `StartsWith` on a suffix is an occurrence at the suffix's start. */
  lemma StartsWithDrop(s: string, p: string, k: int)
    requires 0 <= k <= |s|
    ensures StartsWith(s[k..], p) <==> OccursAt(s, p, k)
  {
    if |p| <= |s| - k {
      assert s[k..][..|p|] == s[k..k + |p|];
    }
  }

  lemma OccursShiftAt(s: string, p: string, i: int)
    requires |s| > 0 && i >= 0
    ensures OccursAt(s[1..], p, i) <==> OccursAt(s, p, i + 1)
  {
    if 0 <= i && i + |p| <= |s| - 1 {
      assert s[1..][i..i + |p|] == s[i + 1..i + 1 + |p|];
    }
  }

  lemma OccursShift(s: string, p: string)
    requires |s| > 0
    ensures forall i :: i >= 0 ==> (OccursAt(s[1..], p, i) <==> OccursAt(s, p, i + 1))
  {
    forall i | i >= 0
      ensures OccursAt(s[1..], p, i) <==> OccursAt(s, p, i + 1)
    {
      OccursShiftAt(s, p, i);
    }
  }

  /** Python's `p in s`: some occurrence of `p` inside `s`. */
  function Contains(s: string, p: string): (r: bool)
    ensures r <==> exists i :: OccursAt(s, p, i)
    decreases |s|
  {
    if |p| > |s| then
      assert forall i :: !OccursAt(s, p, i);
      false
    else if StartsWith(s, p) then
      assert OccursAt(s, p, 0);
      true
    else
      OccursShift(s, p);
      assert !OccursAt(s, p, 0);
      assert forall i :: OccursAt(s, p, i) ==> i >= 1 && OccursAt(s[1..], p, i - 1);
      Contains(s[1..], p)
  }

  /** A substring of `b` is a substring of `a + b`. */
  lemma ContainsAppend(a: string, b: string, q: string)
    requires Contains(b, q)
    ensures Contains(a + b, q)
  {
    var i :| OccursAt(b, q, i);
    assert (a + b)[|a| + i..|a| + i + |q|] == b[i..i + |q|];
    assert OccursAt(a + b, q, |a| + i);
  }

  /** The empty string is a substring of every string. */
  lemma ContainsEmpty(s: string)
    ensures Contains(s, "")
  {
    assert OccursAt(s, "", 0);
  }

  /** `s.count(c)` for a single character: its multiplicity in `s`. */
  function Count(s: string, c: char): (n: nat)
    ensures n == multiset(s)[c]
  {
    if |s| == 0 then 0
    else
      assert s == [s[0]] + s[1..];
      (if s[0] == c then 1 else 0) + Count(s[1..], c)
  }

  /** `s.find(c)` for a single character, `None` standing for -1. */
  function IndexOf(s: string, c: char): (r: Option<nat>)
    ensures r.None? <==> c !in s
    ensures r.Some? ==> r.value < |s| && s[r.value] == c && forall j :: 0 <= j < r.value ==> s[j] != c
  {
    if |s| == 0 then None
    else if s[0] == c then Some(0)
    else
      match IndexOf(s[1..], c)
      case None => None
      case Some(k) => Some(k + 1)
  }

  /** `s.rfind(c)`: the position of the last `c`, if any. */
  function LastIndexOf(s: string, c: char): (r: Option<nat>)
    ensures r.None? <==> c !in s
    ensures r.Some? ==> r.value < |s| && s[r.value] == c && forall j :: r.value < j < |s| ==> s[j] != c
  {
    if |s| == 0 then None
    else if s[|s| - 1] == c then Some(|s| - 1)
    else LastIndexOf(s[..|s| - 1], c)
  }

  /* ---------- replace, split and join ---------- */

  /**
   `s.replace(p, n)`: scanning left to right, every non-overlapping
   occurrence of `p` is replaced by `n`.
   */
  function Replace(s: string, p: string, n: string): string
    requires |p| > 0
    decreases |s|
  {
    if |s| == 0 then ""
    else if StartsWith(s, p) then n + Replace(s[|p|..], p, n)
    else [s[0]] + Replace(s[1..], p, n)
  }

  /**
   `s.split(p)` with a non-empty separator: never an empty list, the first
   piece a prefix of `s`, and no piece containing the separator.
   */
  function Split(s: string, p: string): (parts: seq<string>)
    requires |p| > 0
    ensures |parts| >= 1
    ensures StartsWith(s, parts[0])
    ensures forall k :: 0 <= k < |parts| ==> !Contains(parts[k], p)
    decreases |s|
  {
    if |s| == 0 then [""]
    else if StartsWith(s, p) then
      var rest := Split(s[|p|..], p);
      assert StartsWith(s, "");
      [""] + rest
    else
      var rest := Split(s[1..], p);
      ConsAvoids(s, p, rest[0]);
      var parts := [[s[0]] + rest[0]] + rest[1..];
      assert forall k :: 1 <= k < |parts| ==> parts[k] == rest[k];
      parts
  }

  /**
   A character that does not start an occurrence, followed by a prefix of
   the rest that holds none, gives a prefix that holds none.
   */
  lemma ConsAvoids(s: string, p: string, t: string)
    requires |p| > 0 && |s| > 0
    requires !StartsWith(s, p)
    requires StartsWith(s[1..], t) && !Contains(t, p)
    ensures StartsWith(s, [s[0]] + t)
    ensures !Contains([s[0]] + t, p)
  {
    var u := [s[0]] + t;
    assert u == s[..|u|];
    forall i | 0 <= i
      ensures !OccursAt(u, p, i)
    {
      if i == 0 {
        if |p| <= |u| {
          assert u[0..|p|] == s[..|p|];
        }
      } else {
        OccursShiftAt(u, p, i - 1);
        assert u[1..] == t;
      }
    }
  }

  /** `sep.join(parts)`. */
  function Join(parts: seq<string>, sep: string): string
  {
    if |parts| == 0 then ""
    else if |parts| == 1 then parts[0]
    else parts[0] + sep + Join(parts[1..], sep)
  }

  lemma JoinConsChar(c: char, rest: seq<string>, sep: string)
    requires |rest| >= 1
    ensures Join([[c] + rest[0]] + rest[1..], sep) == [c] + Join(rest, sep)
  {
    var parts := [[c] + rest[0]] + rest[1..];
    if |rest| > 1 {
      assert parts[1..] == rest[1..];
    }
  }

  lemma JoinConsEmpty(rest: seq<string>, sep: string)
    requires |rest| >= 1
    ensures Join([""] + rest, sep) == sep + Join(rest, sep)
  {
    assert ([""] + rest)[1..] == rest;
  }

  /** Splitting at a separator and joining with it gives back the string. */
  lemma {:induction false} JoinSplit(s: string, p: string)
    requires |p| > 0
    ensures Join(Split(s, p), p) == s
    decreases |s|
  {
    if |s| == 0 {
    } else if StartsWith(s, p) {
      JoinSplit(s[|p|..], p);
      JoinConsEmpty(Split(s[|p|..], p), p);
      assert s == p + s[|p|..];
    } else {
      JoinSplit(s[1..], p);
      JoinConsChar(s[0], Split(s[1..], p), p);
      assert s == [s[0]] + s[1..];
    }
  }

  /** `s.replace(p, n)` equals `n.join(s.split(p))`: every occurrence is replaced. */
  lemma {:induction false} ReplaceIsJoinOfSplit(s: string, p: string, n: string)
    requires |p| > 0
    ensures Replace(s, p, n) == Join(Split(s, p), n)
    decreases |s|
  {
    if |s| == 0 {
    } else if StartsWith(s, p) {
      ReplaceIsJoinOfSplit(s[|p|..], p, n);
      JoinConsEmpty(Split(s[|p|..], p), n);
    } else {
      ReplaceIsJoinOfSplit(s[1..], p, n);
      JoinConsChar(s[0], Split(s[1..], p), n);
    }
  }

  /** Replacing a pattern by itself changes nothing. */
  lemma ReplaceSelf(s: string, p: string)
    requires |p| > 0
    ensures Replace(s, p, p) == s
  {
    ReplaceIsJoinOfSplit(s, p, p);
    JoinSplit(s, p);
  }

  /** A pattern that does not occur leaves the string unchanged. */
  lemma {:induction false} ReplaceAbsent(s: string, p: string, n: string)
    requires |p| > 0
    requires !Contains(s, p)
    ensures Replace(s, p, n) == s
    decreases |s|
  {
    if |s| > 0 {
      assert !OccursAt(s, p, 0);
      OccursShift(s, p);
      assert !Contains(s[1..], p);
      ReplaceAbsent(s[1..], p, n);
      assert s == [s[0]] + s[1..];
    }
  }

  /** An occurrence at the very start is replaced; a rest without occurrences is copied. */
  lemma ReplaceLeading(p: string, rest: string, n: string)
    requires |p| > 0
    requires !Contains(rest, p)
    ensures Replace(p + rest, p, n) == n + rest
  {
    assert StartsWith(p + rest, p);
    assert (p + rest)[|p|..] == rest;
    ReplaceAbsent(rest, p, n);
  }

  /**
   A prefix in which no occurrence of the pattern starts is copied
   verbatim; replacement continues on the rest.
   */
  lemma {:induction false} ReplaceAfterPrefix(a: string, b: string, p: string, n: string)
    requires |p| > 0
    requires forall i :: 0 <= i < |a| ==> !StartsWith((a + b)[i..], p)
    ensures Replace(a + b, p, n) == a + Replace(b, p, n)
    decreases |a|
  {
    if |a| > 0 {
      var s := a + b;
      assert s[0..] == s;
      assert s[1..] == a[1..] + b;
      forall i | 0 <= i < |a[1..]|
        ensures !StartsWith((a[1..] + b)[i..], p)
      {
        assert (a[1..] + b)[i..] == s[i + 1..];
      }
      assert !StartsWith(s, p);
      assert Replace(s, p, n) == [s[0]] + Replace(s[1..], p, n);
      ReplaceAfterPrefix(a[1..], b, p, n);
      assert s[0] == a[0];
      assert a == [a[0]] + a[1..];
    } else {
      assert a + b == b;
    }
  }

  /**
   An occurrence of `q` that no occurrence of `p` overlaps survives
   `replace`: the scan copies it whole.
   */
  lemma {:induction false} ReplaceKeepsOccurrence(s: string, p: string, n: string, q: string, i: int)
    requires |p| > 0 && |q| > 0
    requires OccursAt(s, q, i)
    requires forall j :: OccursAt(s, p, j) ==> j + |p| <= i || i + |q| <= j
    ensures Contains(Replace(s, p, n), q)
    decreases |s|
  {
    if i == 0 {
      var a := s[..|q|];
      var b := s[|q|..];
      assert a + b == s;
      forall k | 0 <= k < |a|
        ensures !StartsWith((a + b)[k..], p)
      {
        assert !OccursAt(s, p, k);
        StartsWithDrop(s, p, k);
      }
      ReplaceAfterPrefix(a, b, p, n);
      assert a == q;
      assert (a + Replace(b, p, n))[0..|q|] == a;
      assert OccursAt(Replace(s, p, n), q, 0);
    } else if StartsWith(s, p) {
      assert OccursAt(s, p, 0) by {
        assert s[0..|p|] == s[..|p|];
      }
      var t := s[|p|..];
      OccursDrop(s, q, |p|, i - |p|);
      forall j | OccursAt(t, p, j)
        ensures j + |p| <= i - |p| || i - |p| + |q| <= j
      {
        OccursDrop(s, p, |p|, j);
      }
      ReplaceKeepsOccurrence(t, p, n, q, i - |p|);
      ContainsAppend(n, Replace(t, p, n), q);
    } else {
      var t := s[1..];
      OccursDrop(s, q, 1, i - 1);
      forall j | OccursAt(t, p, j)
        ensures j + |p| <= i - 1 || i - 1 + |q| <= j
      {
        OccursDrop(s, p, 1, j);
      }
      ReplaceKeepsOccurrence(t, p, n, q, i - 1);
      ContainsAppend([s[0]], Replace(t, p, n), q);
    }
  }

  /* ---------- strip ---------- */

  /** The characters `str.isspace` accepts. */
  predicate IsSpace(c: char) {
    var u := c as int;
    || (0x09 <= u <= 0x0D) || (0x1C <= u <= 0x20)
    || u == 0x85 || u == 0xA0 || u == 0x1680
    || (0x2000 <= u <= 0x200A)
    || u == 0x2028 || u == 0x2029 || u == 0x202F || u == 0x205F || u == 0x3000
  }

  function SkipSpace(s: string, i: nat): (k: nat)
    requires i <= |s|
    ensures i <= k <= |s|
    ensures forall j :: i <= j < k ==> IsSpace(s[j])
    ensures k < |s| ==> !IsSpace(s[k])
    decreases |s| - i
  {
    if i == |s| || !IsSpace(s[i]) then i else SkipSpace(s, i + 1)
  }

  function SkipSpaceBack(s: string, lo: nat, hi: nat): (k: nat)
    requires lo <= hi <= |s|
    ensures lo <= k <= hi
    ensures forall j :: k <= j < hi ==> IsSpace(s[j])
    ensures k > lo ==> !IsSpace(s[k - 1])
    decreases hi - lo
  {
    if hi == lo || !IsSpace(s[hi - 1]) then hi else SkipSpaceBack(s, lo, hi - 1)
  }

  /** `s.strip()`: the longest slice without whitespace at either end. */
  function Strip(s: string): (r: string)
    ensures exists i, j :: 0 <= i <= j <= |s| && r == s[i..j]
                         && (forall k :: 0 <= k < i ==> IsSpace(s[k]))
                         && (forall k :: j <= k < |s| ==> IsSpace(s[k]))
    ensures |r| > 0 ==> !IsSpace(r[0]) && !IsSpace(r[|r| - 1])
  {
    var i := SkipSpace(s, 0);
    var j := SkipSpaceBack(s, i, |s|);
    s[i..j]
  }

  /** No whitespace at either end: what `strip` produces. */
  predicate Trimmed(s: string) {
    |s| == 0 || (!IsSpace(s[0]) && !IsSpace(s[|s| - 1]))
  }

  /** `strip` leaves a trimmed string as it is. */
  lemma {:induction false} StripTrimmed(s: string)
    requires Trimmed(s)
    ensures Strip(s) == s
  {
    assert SkipSpace(s, 0) == 0;
    assert SkipSpaceBack(s, 0, |s|) == |s|;
    assert s[0..|s|] == s;
  }

  /** `strip` is idempotent. */
  lemma StripIdempotent(s: string)
    ensures Trimmed(Strip(s))
    ensures Strip(Strip(s)) == Strip(s)
  {
    StripTrimmed(Strip(s));
  }
}

=== FILE: templates.dfy ===
/**
 Project-template loading with literal `{{name}}` substitution, as used when
 `awd init` writes `awd.yml`, `hello-world.prompt.md` and `README.md`.
 */
module Templates {
  import opened Wrappers
  import Strings

  /** A template file that does not exist: Python's `FileNotFoundError`. */
  datatype TemplateError = TemplateNotFound(path: string)

  /** The literal placeholder `{{name}}`. */
  function Placeholder(name: string): (p: string)
    ensures |p| == |name| + 4
    ensures Strings.StartsWith(p, "{{") && Strings.EndsWith(p, "}}")
    ensures p[2..|p| - 2] == name
  {
    var p := "{{" + name + "}}";
    assert p[..2] == "{{" && p[|p| - 2..] == "}}";
    p
  }

  /** A name without braces, as every variable `awd init` passes. */
  predicate BraceFree(name: string) {
    '{' !in name && '}' !in name
  }

  /**
   Substitute the variables one at a time, in argument order: each pass
   replaces every occurrence of one placeholder in the text left by the
   previous passes. Values arrive already converted with `str`.
   */
  function Substitute(content: string, variables: seq<(string, string)>): string
    decreases |variables|
  {
    if |variables| == 0 then content
    else
      var (name, value) := variables[0];
      Substitute(Strings.Replace(content, Placeholder(name), value), variables[1..])
  }

  /**
   `_load_template_file(template_name, filename, **variables)`: the file at
   `<templates>/<template_name>/<filename>`, substituted; a missing file is
   an error and nothing is substituted.
   */
  function LoadTemplateFile(files: map<string, string>, templateDir: string, templateName: string,
                            fileName: string, variables: seq<(string, string)>)
    : (r: Result<string, TemplateError>)
    ensures var path := templateDir + "/" + templateName + "/" + fileName;
            && (path !in files <==> r == Failure(TemplateNotFound(path)))
            && (path in files ==> r == Success(Substitute(files[path], variables)))
            && (path in files && |variables| == 0 ==> r == Success(files[path]))
  {
    var path := templateDir + "/" + templateName + "/" + fileName;
    if path !in files then Failure(TemplateNotFound(path))
    else Success(Substitute(files[path], variables))
  }

  /**
   One variable replaces every occurrence of its placeholder: the content
   is a sequence of placeholder-free pieces joined by the placeholder, and
   the result is the same pieces joined by the value.
   */
  lemma SubstituteOne(content: string, name: string, value: string)
    ensures var pieces := Strings.Split(content, Placeholder(name));
            && (forall k :: 0 <= k < |pieces| ==> !Strings.Contains(pieces[k], Placeholder(name)))
            && Strings.Join(pieces, Placeholder(name)) == content
            && Substitute(content, [(name, value)]) == Strings.Join(pieces, value)
  {
    Strings.ReplaceIsJoinOfSplit(content, Placeholder(name), value);
    Strings.JoinSplit(content, Placeholder(name));
  }

  /** Text containing none of the variables' placeholders comes back unchanged. */
  lemma {:induction false} SubstituteWithoutPlaceholders(content: string, variables: seq<(string, string)>)
    requires forall k :: 0 <= k < |variables| ==> !Strings.Contains(content, Placeholder(variables[k].0))
    ensures Substitute(content, variables) == content
    decreases |variables|
  {
    if |variables| > 0 {
      Strings.ReplaceAbsent(content, Placeholder(variables[0].0), variables[0].1);
      assert forall k :: 0 <= k < |variables[1..]| ==> variables[1..][k] == variables[k + 1];
      SubstituteWithoutPlaceholders(content, variables[1..]);
    }
  }

  lemma NameNotInMissingTail()
    ensures !Strings.Contains(", {{missing}}", "{{name}}")
  {
    var s := ", {{missing}}";
    assert s[2..8] == "{{miss";
    forall i | 0 <= i <= |s| - 8
      ensures !Strings.OccursAt(s, "{{name}}", i)
    {
      assert s[i + 2] == s[2..8][i];
      assert s[i + 2] != 'n';
      assert s[i..i + 8][2] == s[i + 2];
    }
  }

  /**
   Substituting one variable where no occurrence of its placeholder starts
   before the chosen one, and none follows it, leaves everything around it,
   other placeholders included, verbatim.
   */
  lemma SubstituteKeepsRest(before: string, name: string, value: string, after: string)
    requires forall i :: 0 <= i < |before| ==> !Strings.OccursAt(before + Placeholder(name) + after, Placeholder(name), i)
    requires !Strings.Contains(after, Placeholder(name))
    ensures Substitute(before + Placeholder(name) + after, [(name, value)]) == before + value + after
  {
    var p := Placeholder(name);
    var s := before + (p + after);
    assert before + p + after == s;
    forall i | 0 <= i < |before|
      ensures !Strings.StartsWith(s[i..], p)
    {
      Strings.StartsWithDrop(s, p, i);
    }
    Strings.ReplaceAfterPrefix(before, p + after, p, value);
    Strings.ReplaceLeading(p, after, value);
    assert [(name, value)][1..] == [];
  }

  /** The example template `Hello {{name}}, {{missing}}` with one variable `name`. */
  lemma MissingVariableKeptVerbatim(value: string)
    ensures Substitute("Hello " + Placeholder("name") + ", {{missing}}", [("name", value)])
            == "Hello " + value + ", {{missing}}"
  {
    var before := "Hello ";
    var p := Placeholder("name");
    assert p == "{{name}}";
    var s := before + p + ", {{missing}}";
    forall i | 0 <= i < |before|
      ensures !Strings.OccursAt(s, p, i)
    {
      assert s[i] == before[i] != '{';
      if i + |p| <= |s| {
        assert s[i..i + |p|][0] == s[i];
      }
    }
    NameNotInMissingTail();
    SubstituteKeepsRest(before, "name", value, ", {{missing}}");
  }

  /** In the placeholder of a brace-free name, only the first two characters are `{` and only the last two `}`. */
  lemma PlaceholderBraces(name: string)
    requires BraceFree(name)
    ensures forall k :: 0 <= k < |Placeholder(name)| ==> (Placeholder(name)[k] == '{' <==> k < 2)
    ensures forall k :: 0 <= k < |Placeholder(name)| ==> (Placeholder(name)[k] == '}' <==> k >= |name| + 2)
  {
    var p := Placeholder(name);
    assert forall k :: 2 <= k < |name| + 2 ==> p[k] == name[k - 2];
  }

  /** Occurrences of the placeholders of two different brace-free names never overlap. */
  lemma PlaceholdersDoNotOverlap(s: string, a: string, b: string, i: int, j: int)
    requires BraceFree(a) && BraceFree(b) && a != b
    requires Strings.OccursAt(s, Placeholder(a), i) && Strings.OccursAt(s, Placeholder(b), j)
    ensures j + |Placeholder(b)| <= i || i + |Placeholder(a)| <= j
  {
    var pa := Placeholder(a);
    var pb := Placeholder(b);
    PlaceholderBraces(a);
    PlaceholderBraces(b);
    forall m | i <= m < i + |pa|
      ensures s[m] == pa[m - i]
    {
      assert s[m] == s[i..i + |pa|][m - i];
    }
    forall m | j <= m < j + |pb|
      ensures s[m] == pb[m - j]
    {
      assert s[m] == s[j..j + |pb|][m - j];
    }
    assert s[i] == '{' && s[i + 1] == '{' && s[i + 2] != '{';
    assert s[j] == '{' && s[j + 1] == '{' && s[j + 2] != '{';
    assert pa[2..|pa| - 2] == a && pb[2..|pb| - 2] == b;
    assert s[i + |pa| - 2] == '}' && s[j + |pb| - 2] == '}';
  }

  /**
   A placeholder whose name none of the variables has survives
   substitution, whatever the values, when all names are brace-free.
   */
  lemma {:induction false} UnknownPlaceholderStays(content: string, variables: seq<(string, string)>, other: string)
    requires BraceFree(other)
    requires forall k :: 0 <= k < |variables| ==> BraceFree(variables[k].0) && variables[k].0 != other
    requires Strings.Contains(content, Placeholder(other))
    ensures Strings.Contains(Substitute(content, variables), Placeholder(other))
    decreases |variables|
  {
    if |variables| > 0 {
      var (name, value) := variables[0];
      var i :| Strings.OccursAt(content, Placeholder(other), i);
      forall j | Strings.OccursAt(content, Placeholder(name), j)
        ensures j + |Placeholder(name)| <= i || i + |Placeholder(other)| <= j
      {
        PlaceholdersDoNotOverlap(content, other, name, i, j);
      }
      Strings.ReplaceKeepsOccurrence(content, Placeholder(name), value, Placeholder(other), i);
      assert forall k :: 0 <= k < |variables[1..]| ==> variables[1..][k] == variables[k + 1];
      UnknownPlaceholderStays(Strings.Replace(content, Placeholder(name), value), variables[1..], other);
    }
  }

  /** Variables apply in order: a value may introduce a placeholder that a later variable then fills. */
  lemma SubstitutionIsSequential()
    ensures Substitute("{{a}}", [("a", "{{b}}"), ("b", "x")]) == "x"
    ensures Substitute("{{a}}", [("b", "x"), ("a", "{{b}}")]) == "{{b}}"
  {
    assert Placeholder("a") == "{{a}}";
    assert Placeholder("b") == "{{b}}";
    Strings.ReplaceSelf("{{a}}", "{{a}}");
    assert Strings.StartsWith("{{a}}", "{{a}}");
    assert Strings.Replace("{{a}}", "{{a}}", "{{b}}") == "{{b}}" + Strings.Replace("", "{{a}}", "{{b}}");
    assert Strings.StartsWith("{{b}}", "{{b}}");
    assert Strings.Replace("{{b}}", "{{b}}", "x") == "x" + Strings.Replace("", "{{b}}", "x");
    assert !Strings.Contains("{{a}}", "{{b}}") by {
      assert !Strings.StartsWith("{{a}}", "{{b}}");
      assert forall i :: Strings.OccursAt("{{a}}", "{{b}}", i) ==> i == 0;
    }
    Strings.ReplaceAbsent("{{a}}", "{{b}}", "x");
    assert !Strings.Contains("{{b}}", "{{a}}") by {
      assert !Strings.StartsWith("{{b}}", "{{a}}");
      assert forall i :: Strings.OccursAt("{{b}}", "{{a}}", i) ==> i == 0;
    }
    Strings.ReplaceAbsent("{{b}}", "{{a}}", "{{b}}");
  }
}

=== FILE: values.dfy ===
/**
 A parsed YAML or JSON document (what `yaml.safe_load` or `response.json()`
 hands back) and the few Python operations the tool applies to it:
 truthiness, `in`, subscripting and `dict.get`.
 */
module Values {
  import opened Wrappers
  import Strings

  /** Mappings are keyed by strings; their insertion order is not kept. */
  datatype Value =
    | Null
    | Bool(b: bool)
    | Int(i: int)
    | Str(s: string)
    | List(items: seq<Value>)
    | Dict(entries: map<string, Value>)

  /** The exceptions Python raises when an operation does not fit the value's type. */
  datatype PyError = TypeError | AttributeError | KeyError

  const EmptyDict: Value := Dict(map[])

  /**
   An exception escaping code outside this model (the script runner, the
   package-manager factory), told apart only as far as the `except` clauses
   around the call distinguish it. `ModuleNotFoundError` is an `ImportError`.
   */
  datatype Raised = ImportError | NameError | OtherError

  /** The exit status once an exception reaches `except ImportError` (a warning) or `except Exception` (exit 1). */
  function ExitAfterRaise(e: Raised): (code: int)
    ensures code == 0 <==> e == ImportError
    ensures code == 0 || code == 1
  {
    if e == ImportError then 0 else 1
  }

  /** Reading a YAML file: an error while opening or parsing it, or the parsed document. */
  datatype ReadResult = Unreadable | Parsed(document: Value)

  /** Python truthiness: `None`, `False`, `0` and empty containers are falsy. */
  predicate Truthy(v: Value)
    ensures !Truthy(v) <==> v in {Null, Bool(false), Int(0), Str(""), List([]), EmptyDict}
  {
    match v
    case Null => false
    case Bool(b) => b
    case Int(i) => i != 0
    case Str(s) => s != ""
    case List(items) => items != []
    case Dict(entries) => entries != map[]
  }

  /** `key in v` for a string `key`. */
  function Membership(key: string, v: Value): (r: Result<bool, PyError>)
    ensures v.Dict? ==> r == Success(key in v.entries)
    ensures v.List? ==> r == Success(Str(key) in v.items)
    ensures v.Str? ==> r.Success? && (r.value <==> exists i :: Strings.OccursAt(v.s, key, i))
    ensures v.Null? || v.Bool? || v.Int? ==> r == Failure(TypeError)
  {
    match v
    case Dict(entries) => Success(key in entries)
    case List(items) => Success(Str(key) in items)
    case Str(s) => Success(Strings.Contains(s, key))
    case _ => Failure(TypeError)
  }

  /** `v[key]` for a string `key`. */
  function Subscript(v: Value, key: string): (r: Result<Value, PyError>)
    ensures r.Success? <==> v.Dict? && key in v.entries
    ensures r.Success? ==> r.value == v.entries[key]
  {
    match v
    case Dict(entries) => if key in entries then Success(entries[key]) else Failure(KeyError)
    case _ => Failure(TypeError)
  }

  /** `v.get(key, default)`: only mappings have a `get` method. */
  function Get(v: Value, key: string, default: Value): (r: Result<Value, PyError>)
    ensures r.Success? <==> v.Dict?
    ensures v.Dict? && key in v.entries ==> r == Success(v.entries[key])
    ensures v.Dict? && key !in v.entries ==> r == Success(default)
  {
    match v
    case Dict(entries) => Success(if key in entries then entries[key] else default)
    case _ => Failure(AttributeError)
  }
}

=== FILE: wrappers.dfy ===
/** Failure-compatible Option and Result types shared by every module. */
module Wrappers {

  /** A value that may be missing: Python's `None` versus a present value. */
  datatype Option<+T> = None | Some(value: T) {

    predicate IsFailure() {
      None?
    }

    function PropagateFailure<U>(): Option<U>
      requires None?
    {
      None
    }

    function Extract(): T
      requires Some?
    {
      value
    }

    function GetOr(default: T): T {
      match this
      case Some(v) => v
      case None => default
    }
  }

  /** Either a computed value or the exception Python would raise. */
  datatype Result<+R, +E> = Success(value: R) | Failure(error: E) {

    predicate IsFailure() {
      Failure?
    }

    function PropagateFailure<U>(): Result<U, E>
      requires Failure?
    {
      Failure(error)
    }

    function Extract(): R
      requires Success?
    {
      value
    }
  }
}
